=== FILE: README.md ===
# Pangor CFG builder and special-type transfer functions in Dafny

This project models two parts of Pangor, a miner of bug-repair patterns in
JavaScript.

The first part is the intraprocedural **control-flow graph builder**
(`CFGFactory`). It turns the body of a script or function into a CFG by
structural induction over statements. Each rule returns a fragment: an
entry node plus four sets of dangling nodes (normal exits, returns, breaks
and continues). The enclosing rule wires or forwards those sets.

The second part is the **special-type repair analysis**
(`SpecialTypeFlowAnalysis`). It holds the lattice element threaded along
one path of a CFG, and the edge and node transfer functions that update it
and report findings.

| file | module | contents |
|---|---|---|
| `wrappers.dfy` | `Wrappers` | `Option`, which stands for Java's nullable references |
| `cfg_graph.dfy` | `CfgGraph` | statements, node payloads, guarded edges, merge pairs, fragments, the well-formedness invariant `Good` |
| `cfg_factory.dfy` | `CfgFactory` | one function per build rule, the dispatcher `Build`, the block rule, script CFGs and the list of all CFGs |
| `cfg_laws.dfy` | `CfgLaws` | the block rule as the source's loop, proved equal to the recursive model; what a block skips; where its entry and exits come from |
| `special_type.dfy` | `SpecialTypeFlow` | the lattice element, entry value, edge transfer, findings, assignments, node transfer and path lemmas |

## Modelling choices

- **Node identity.** Java object identity becomes a number from a fresh-id
  counter. Ids follow the order in which the source allocates nodes. A
  fragment owns a contiguous id range `[base, Limit())`, and `nodes[k]` is
  the payload of node `base + k`. `Good(f, lo)` says four things. The
  fragment starts at `lo` and its entry is its first node. It owns at least
  one node and refers only to nodes it owns. No node is in two of its four
  exit sets. Every rule establishes it.
- **What a rule keeps.** Each rule states its result's edges and merges
  exactly: those of its parts plus the ones it adds. It also states that
  each part keeps its payloads. `PayloadsKept(b, r)` says that `b`'s id
  range lies inside `r`'s and that `r` gives those ids `b`'s payloads.
- **Null.** A sub-statement that builds nothing is `None`. That covers a
  function declaration, a block containing only function declarations, an
  empty block, and an absent branch. Some rules put a fresh empty node in
  place of such a branch, as the source does:
  - the if rule, for the then and else parts;
  - the while, do, for and for-in rules, for the body;
  - the switch rule, for a case;
  - the try rule, for the finally, try and catch blocks.

  The with rule does not: its node is then the whole fragment. The block
  rule does not either: it skips the statement.
- **Collections.** Exit sets, edges and `mergeInto` pairs are sets.
  `mergeInto` is recorded as a `Merge(node, into)` pair. What it does to
  the graph is not modelled, because the node class is not part of this
  model.
- **Crashes.** The source dereferences null in two places: a switch with
  no cases, and a script or function body that builds nothing. The model
  makes both preconditions (`Buildable`, `BodyBuildable`).
- **Foreign helpers.** The function-node visitor, the special-type
  visitor, the used-identifier and assignment extractors, the special-type
  classifier of assigned values, and the scope's declaration lookup are
  not modelled. Their answers are parameters:
  - the list of function bodies;
  - a list of `Check(identifier, type, isSpecialType)` per condition;
  - a set of used names;
  - a list of `Assignment(identifier, type option, change type)`;
  - a map from names to the change type of their declaration.
- **Results.** A finding is a `CheckResult(identifier, type)` datatype.
  Dafny's equality on it is equality of both fields, which is the source's
  `equals` (`SpecialTypeFlowAnalysis.java:220-230`). The result set is a
  Dafny set, so a result reported twice is kept once.
- **Mutation.** The edge and node transfers update the lattice element in
  place. Here they are pure functions from the old element to the new one.
  The node transfer also returns the grown result set.

### Quirks of the code

- The if rule builds its negated edge from the else part, not from the
  condition, and points it at the **then** entry (`CFGFactory.java:219`).
  No edge from outside the else branch enters it (`CfgFactory.IfStmt`).
- The while and for rules add the body's normal exits to the loop's exits
  as well as wiring them back (`CFGFactory.java:254`, `359`). They drop the
  body's return nodes. The do-while and for-in rules propagate returns.
- The for-in rule adds no edge out of its entry node or its next-key
  assignment node. The condition node therefore has no incoming edge
  (`CfgFactory.ForInLoop`).
- The switch, with and try nodes are normal exits of their own
  statements. Returns, breaks and continues in a try or catch block
  propagate past a finally block without being merged into it
  (`CfgFactory.Absorb`).
- An empty script or function body dereferences null.
- The edge transfer records every check the visitor reports, without
  looking at whether the check was inserted. It stops at the first check on
  a variable whose declaration was inserted.

## Model

| member | source | states |
|---|---|---|
| CfgFactory.LeafStmt | src/ca/ubc/ece/salt/sdjsb/cfg2/CFGFactory.java:724-731 | a statement the builder does not know becomes one node that is the entry and the only normal exit, with no edges and no jump nodes |
| CfgFactory.JumpStmt | src/ca/ubc/ece/salt/sdjsb/cfg2/CFGFactory.java:679-716 | a break, continue or return becomes one jump node: the entry and the only member of the matching jump set, with no normal exit and no edge |
| CfgFactory.Then | src/ca/ubc/ece/salt/sdjsb/cfg2/CFGFactory.java:143-163 | chaining two block members: the edges are exactly both members' edges plus an unguarded edge from every normal exit of the first to the second's entry; the merges are both members' merges; both keep their node payloads; the exits are the second's and the jump sets are united |
| CfgFactory.BuildBlock | src/ca/ubc/ece/salt/sdjsb/cfg2/CFGFactory.java:129-178 | a block builds a fragment exactly when one of its statements does, and that fragment is well formed from the first free id |
| CfgLaws.BlockLoop | src/ca/ubc/ece/salt/sdjsb/cfg2/CFGFactory.java:129-178 | the source's left-to-right loop over the statements, keeping the fragment built so far, yields the same fragment as the recursive block rule |
| CfgLaws.BlockSnoc | src/ca/ubc/ece/salt/sdjsb/cfg2/CFGFactory.java:137-165 | building a block with one more statement at the end is one more iteration of the loop on the shorter block |
| CfgLaws.ThenAssoc | src/ca/ubc/ece/salt/sdjsb/cfg2/CFGFactory.java:143-163 | chaining is associative, so wiring each member to the previous one gives the same graph however the block is split |
| CfgLaws.BlockSkips | src/ca/ubc/ece/salt/sdjsb/cfg2/CFGFactory.java:141-143 | statements that build nothing are skipped without taking an id: the block builds what its building statements alone build |
| CfgLaws.BlockEntry | src/ca/ubc/ece/salt/sdjsb/cfg2/CFGFactory.java:145-148 | the block's entry is the entry of its first building statement |
| CfgLaws.BlockExits | src/ca/ubc/ece/salt/sdjsb/cfg2/CFGFactory.java:170-173 | the block's normal exits are those of its last building statement |
| CfgLaws.BlockJumps | src/ca/ubc/ece/salt/sdjsb/cfg2/CFGFactory.java:150-162 | appending a building statement to a block adds exactly that statement's return, break and continue nodes to the block's; the block's edges become exactly the earlier ones, the statement's own, and unguarded edges from the earlier normal exits to its entry |
| CfgFactory.IfStmt | src/ca/ubc/ece/salt/sdjsb/cfg2/CFGFactory.java:186-227 | the edges are exactly both branches' edges plus the if node's two edges, the condition and the negated else part, both to the then entry; no edge from outside the else branch enters it; merges, payloads and all four sets are those of the two branches |
| CfgFactory.WhileLoop | src/ca/ubc/ece/salt/sdjsb/cfg2/CFGFactory.java:236-277 | the edges are exactly the body's, the condition edge from the head into the body, the negated edge to a fresh node after the body, and unguarded edges back to the head from exactly the body's normal exits and continues; the body's merges and payloads are kept; exits are body exits, body breaks and the fresh node; no jump sets |
| CfgFactory.DoLoop | src/ca/ubc/ece/salt/sdjsb/cfg2/CFGFactory.java:284-330 | the edges are exactly the body's, one unguarded edge from the do node into the body, unguarded edges from exactly the body's normal exits and continues to the condition node, and that node's condition edge back to the body and negated edge to a fresh empty exit node after the body; the body's merges and payloads are kept; exits are body breaks and the fresh node; returns propagate |
| CfgFactory.ForLoop | src/ca/ubc/ece/salt/sdjsb/cfg2/CFGFactory.java:339-382 | the edges are exactly the body's, the initializer node's condition edge into the body and negated edge to a fresh empty exit node after the body, unguarded edges to the increment node from exactly the body's normal exits and continues, and one unguarded edge from the increment node back; the body's merges and payloads are kept; exits as for while; returns dropped |
| CfgFactory.ForInLoop | src/ca/ubc/ece/salt/sdjsb/cfg2/CFGFactory.java:392-476 | the edges are exactly the body's, the condition node's has-next-key edge into the body and its negation to a fresh empty exit node after the body, and unguarded edges to the next-key assignment node from exactly the body's exits and continues; so the entry and assignment node have no outgoing edge and nothing reaches the condition node; the body's merges and payloads are kept; exits are body breaks and the fresh node; returns propagate |
| CfgFactory.WithStmt | src/ca/ubc/ece/salt/sdjsb/cfg2/CFGFactory.java:553-581 | the with node is the entry and a normal exit with no edges; when the inner statement builds, its entry is recorded as the scope block, the statement allocates nothing beyond the with node and the inner statement's nodes, and its four sets, edges, merges and payloads are the inner statement's |
| CfgFactory.FallThrough | src/ca/ubc/ece/salt/sdjsb/cfg2/CFGFactory.java:528-537 | a case's normal exits are merged into the next case's entry, and no edge is added: the edges are exactly both cases' and the merges exactly theirs plus those; both keep their payloads; the later case's exits are the chain's exits; jump sets are united |
| CfgFactory.KeyTarget | src/ca/ubc/ece/salt/sdjsb/cfg2/CFGFactory.java:409-418 | the for-in loop assigns the first declared variable, the name itself, or the placeholder name `~error~` for any other iterator |
| CfgFactory.BuildCases | src/ca/ubc/ece/salt/sdjsb/cfg2/CFGFactory.java:493-539 | one target per case, in case order, with the case's test; each target is the entry of its case's fragment, which the switch owns; the cases follow one another in id order, so targets strictly increase; the switch's edges and return, break and continue sets are exactly the union of the cases'; its merges are exactly the cases' plus each case's normal exits merged into the next case's target; every case keeps its payloads |
| CfgLaws.CaseList | src/ca/ubc/ece/salt/sdjsb/cfg2/CFGFactory.java:499-514 | each case's fragment is what its statements build, or a fresh empty node when they build nothing |
| CfgLaws.CaseParts | src/ca/ubc/ece/salt/sdjsb/cfg2/CFGFactory.java:497-517 | the fragments the switch rule lays out are exactly those of the cases, in order, back to back |
| CfgFactory.SwitchStmt | src/ca/ubc/ece/salt/sdjsb/cfg2/CFGFactory.java:485-546 | the switch node is the entry and a normal exit, holds the case targets and has no edges; the edges and merges are exactly the cases', whose payloads are kept; exits also include every case break and the last case's exits; returns and continues propagate; breaks are consumed |
| CfgFactory.TryFinally | src/ca/ubc/ece/salt/sdjsb/cfg2/CFGFactory.java:594-615 | the try node is a normal exit with no edges; the edges, merges and payloads are the finally block's; a finally block that was present propagates all four sets, a fabricated one nothing |
| CfgFactory.Absorb | src/ca/ubc/ece/salt/sdjsb/cfg2/CFGFactory.java:617-663 | appending a try or catch block adds exactly its edges, merges, payloads and return, break and continue nodes; a block that built has every normal exit merged into the finally entry instead of becoming an exit, and none of its returns merged; one that built nothing adds only a fresh node; the try statement's entry, exits and head edges are unchanged |
| CfgFactory.BuildCatches | src/ca/ubc/ece/salt/sdjsb/cfg2/CFGFactory.java:640-667 | one target per catch clause in order, with the clause's condition; each target is the entry of the clause's block, or its fresh node when the block built nothing; targets lie after the try block and strictly increase; the edges and jump sets are exactly the try statement's and the clauses'; the merges are exactly those plus the building clauses' exits merged into the finally entry; every part keeps its payloads; the try statement's entry, exits and head edges are unchanged |
| CfgLaws.CatchList | src/ca/ubc/ece/salt/sdjsb/cfg2/CFGFactory.java:645-651 | each clause's fragment is what its body builds, or a fresh empty node when it builds nothing |
| CfgLaws.CatchParts | src/ca/ubc/ece/salt/sdjsb/cfg2/CFGFactory.java:643-667 | the fragments the try rule lays out for the catch clauses are exactly those of the clauses, in order, back to back after the try block |
| CfgFactory.TryStmt | src/ca/ubc/ece/salt/sdjsb/cfg2/CFGFactory.java:594-638 | the try node's payload records the try, finally and catch branches; nothing else about the fragment changes |
| CfgLaws.TryInOrder | src/ca/ubc/ece/salt/sdjsb/cfg2/CFGFactory.java:592-638 | the try node is the entry and has no edges; the finally block (or a fresh node) comes right after it and is its finally branch; the try block comes next and is its try branch |
| CfgLaws.TryTargets | src/ca/ubc/ece/salt/sdjsb/cfg2/CFGFactory.java:640-667 | the try node has one catch target per clause, the first right after the try block |
| CfgLaws.TryFlow | src/ca/ubc/ece/salt/sdjsb/cfg2/CFGFactory.java:594-636 | the try node and a present finally block's exits are the statement's normal exits, a present finally block's returns propagate, and a try block that built has its exits merged into the finally entry and its jumps propagated |
| CfgFactory.Build | src/ca/ubc/ece/salt/sdjsb/cfg2/CFGFactory.java:736-772 | the dispatcher builds a fragment exactly when the statement is not a function declaration or a block that builds nothing, and every fragment is well formed from the first free id |
| CfgFactory.ScriptWrap | src/ca/ubc/ece/salt/sdjsb/cfg2/CFGFactory.java:70-95 | a fresh entry and exit come first; the edges are exactly the body's, the entry's one unguarded edge to the body, and unguarded edges to the exit from exactly the body's normal exits; so no return, break or continue node of the body reaches the exit; the exit is the only declared exit; the body's merges and payloads are kept |
| CfgFactory.ScriptCfg | src/ca/ubc/ece/salt/sdjsb/cfg2/CFGFactory.java:70-95 | a script or function CFG has the fresh entry and exit; its edges are exactly the body's, an unguarded edge from the entry to the body's first node, and edges into the exit from exactly the body's normal exits, none from its returns; the exit is its only declared exit; no jump sets; the body's merges and payloads are kept |
| CfgFactory.LayOut | src/ca/ubc/ece/salt/sdjsb/cfg2/CFGFactory.java:56-59 | one CFG per function body, in order; the first starts at the first free id and each later one at the id the previous one left free; ranges never overlap |
| CfgFactory.CreateCfgs | src/ca/ubc/ece/salt/sdjsb/cfg2/CFGFactory.java:46-62 | the script's CFG comes first, then one CFG per function in the given order |
| CfgFactory.CfgsDisjoint | src/ca/ubc/ece/salt/sdjsb/cfg2/CFGFactory.java:46-62 | no two CFGs of a script share a node |
| SpecialTypeFlow.EntryValue | src/ca/ubc/ece/salt/sdjsb/analysis/specialtype/SpecialTypeFlowAnalysis.java:53-56 | nothing is known about any identifier at a function's entry |
| SpecialTypeFlow.AddType | src/ca/ubc/ece/salt/sdjsb/analysis/specialtype/SpecialTypeFlowAnalysis.java:82-98 | adding a type creates a one-element list when absent and otherwise appends only a missing type; old lists are prefixes; other identifiers are untouched; lists without duplicates stay so |
| SpecialTypeFlow.Record | src/ca/ubc/ece/salt/sdjsb/analysis/specialtype/SpecialTypeFlowAnalysis.java:75-123 | a positive check makes its identifier a key of the may-be map and its type a member of that list, a negative one the same for the cannot-be map, and nothing else becomes a key or a member; the other map and the assignments are unchanged; old lists are prefixes of the new; lists without duplicates stay so |
| SpecialTypeFlow.Applied | src/ca/ubc/ece/salt/sdjsb/analysis/specialtype/SpecialTypeFlowAnalysis.java:78-79 | the checks that take effect are exactly the prefix before the first check on a variable whose declaration was inserted |
| SpecialTypeFlow.ApplyChecks | src/ca/ubc/ece/salt/sdjsb/analysis/specialtype/SpecialTypeFlowAnalysis.java:70-126 | checks never remove an identifier or shorten a list, never touch assignments, and never introduce duplicates |
| SpecialTypeFlow.ApplyChecksStops | src/ca/ubc/ece/salt/sdjsb/analysis/specialtype/SpecialTypeFlowAnalysis.java:104-105 | the early return keeps earlier checks: the result is that of applying exactly the checks before the first inserted variable |
| SpecialTypeFlow.ApplyChecksSpecialKeys | src/ca/ubc/ece/salt/sdjsb/analysis/specialtype/SpecialTypeFlowAnalysis.java:82-98 | an identifier has a may-be list afterwards exactly when it had one or an applied positive check names it |
| SpecialTypeFlow.ApplyChecksSpecialTypes | src/ca/ubc/ece/salt/sdjsb/analysis/specialtype/SpecialTypeFlowAnalysis.java:75-98 | a may-be list holds a type afterwards exactly when it held it before or an applied positive check adds it |
| SpecialTypeFlow.ApplyChecksNonSpecialKeys | src/ca/ubc/ece/salt/sdjsb/analysis/specialtype/SpecialTypeFlowAnalysis.java:108-123 | an identifier has a cannot-be list afterwards exactly when it had one or an applied negative check names it |
| SpecialTypeFlow.ApplyChecksNonSpecialTypes | src/ca/ubc/ece/salt/sdjsb/analysis/specialtype/SpecialTypeFlowAnalysis.java:101-123 | a cannot-be list holds a type afterwards exactly when it held it before or an applied negative check adds it |
| SpecialTypeFlow.TransferEdge | src/ca/ubc/ece/salt/sdjsb/analysis/specialtype/SpecialTypeFlowAnalysis.java:59-128 | an edge without a condition changes nothing; the edge transfer never changes assignments and applies exactly the checks before the first inserted variable |
| SpecialTypeFlow.InsertedSuppresses | src/ca/ubc/ece/salt/sdjsb/analysis/specialtype/SpecialTypeFlowAnalysis.java:78-79 | a first check on an inserted variable leaves the element unchanged, whatever follows |
| SpecialTypeFlow.Findings | src/ca/ubc/ece/salt/sdjsb/analysis/specialtype/SpecialTypeFlowAnalysis.java:138-166 | a result is reported exactly when the identifier is known not to be that type, is not known to be any type, is used, and was last assigned neither a falsey value nor that type |
| SpecialTypeFlow.CollectFindings | src/ca/ubc/ece/salt/sdjsb/analysis/specialtype/SpecialTypeFlowAnalysis.java:138-166 | the source's nested loop over identifiers and their lists adds exactly those results to the result set |
| SpecialTypeFlow.Assign | src/ca/ubc/ece/salt/sdjsb/analysis/specialtype/SpecialTypeFlowAnalysis.java:171-194 | an inserted, removed or updated special-type assignment records its type, any other forgets the identifier's assignment; either way its cannot-be list goes; nothing else changes |
| SpecialTypeFlow.ApplyAssignments | src/ca/ubc/ece/salt/sdjsb/analysis/specialtype/SpecialTypeFlowAnalysis.java:169-196 | the may-be lists are untouched, and no assigned identifier keeps a cannot-be list |
| SpecialTypeFlow.LastAssignmentWins | src/ca/ubc/ece/salt/sdjsb/analysis/specialtype/SpecialTypeFlowAnalysis.java:171-196 | the last assignment to an identifier decides what is recorded for it; an identifier never assigned keeps its assignment and its cannot-be list |
| SpecialTypeFlow.TransferNode | src/ca/ubc/ece/salt/sdjsb/analysis/specialtype/SpecialTypeFlowAnalysis.java:131-198 | findings are judged against the element before the statement's assignments; the node transfer never changes the may-be lists |
| SpecialTypeFlow.FirstEdgeFindings | src/ca/ubc/ece/salt/sdjsb/analysis/specialtype/SpecialTypeFlowAnalysis.java:53-166 | after the first guarded edge from a function's entry, a statement reports a result exactly when an applied negative check names it, no applied positive check names its identifier, and the statement uses that identifier |
| SpecialTypeFlow.CheckThenUse | src/ca/ubc/ece/salt/sdjsb/analysis/specialtype/SpecialTypeFlowAnalysis.java:101-157 | a negative check on an edge followed by a use of a fresh, unassigned identifier reports it |
| SpecialTypeFlow.PositiveCheckBlocks | src/ca/ubc/ece/salt/sdjsb/analysis/specialtype/SpecialTypeFlowAnalysis.java:138-141 | after a positive check on an identifier, no use of it reports anything |
| SpecialTypeFlow.AssignedNotReported | src/ca/ubc/ece/salt/sdjsb/analysis/specialtype/SpecialTypeFlowAnalysis.java:188-194 | an identifier assigned in a statement is not reported at the next statement |

## Left out

- Edge order. The source adds a node's edges in a fixed order (condition
  first, negation second). Edges here form a set, so that order is not
  modelled.
- CfgFactory.IfStmt: does not state that the condition edge is the if
  node's first edge, because edges form a set.
- CfgFactory.WhileLoop: does not state that the condition edge is the
  head's first edge, because edges form a set.
- CfgFactory.ForLoop: does not state that the condition edge is the
  initializer node's first edge, because edges form a set.
- CfgFactory.DoLoop: does not state that the condition edge is the
  condition node's first edge, because edges form a set.
- CfgFactory.ForInLoop: does not state that the has-next-key edge is the
  condition node's first edge, because edges form a set.
- CfgFactory.Build: its contract, like that of the per-statement
  functions (`BuildIf` and the rest), states only that the fragment exists
  exactly when expected and is well formed. The shape of each construct is
  stated by the rule function it calls.
- The effect of `mergeInto`, and the internals of the CFG, node, switch,
  try, with and jump node classes. These are not part of this model;
  merges are recorded as pairs.
- Rhino's AST. Statements are an abstract datatype. Expressions are
  opaque except for the variable shapes the for-in rule inspects. Break
  and continue labels are carried but not used by any rule, as in the
  source.
- The Java `assert` statements in the block rule. They are not enforced,
  and a block member may have several normal exits.
- `FunctionNodeVisitor.getFunctions`. The list of function bodies is an
  input.
- The function-or-script distinction in `build(ScriptNode)`. Both kinds
  of body are modelled as a statement list built by the block rule.
- The path-sensitive driver, lattice-element copying, and the node
  counter that bounds loops. They are not part of this model. The transfer
  functions are modelled for one step each.
- The special-type visitor, `getUsedIdentifiers`,
  `getIdentifierAssignments`, `getSpecialType` and
  `Scope.getVariableDeclaration`. They are not part of this model; their
  results are inputs.
- The debug print of a negative check, and `hashCode` of a result. These
  are output and hashing, not behaviour.
- Aliasing of the lattice element's lists. The source appends to the
  stored list objects in place. Lists here are values.
- The change-type enumeration. It is not part of this model. Its five
  constants follow the differencer's annotations; the transfers only
  distinguish inserted, removed and updated from the rest.

=== FILE: cfg_factory.dfy ===
/**
 * The intraprocedural CFG builder: one rule per JavaScript statement kind,
 * composed by structural induction, with a fresh-id counter standing in for
 * object allocation. Node ids are handed out in the order the builder
 * allocates its nodes.
 */
module CfgFactory {

  import opened Wrappers
  import opened CfgGraph

  // ---------------------------------------------------------------------
  // Measures and preconditions over statements
  // ---------------------------------------------------------------------

  /** A termination measure; a nested function's body is never entered. */
  function Size(s: Stmt): nat {
    match s
    case Block(ss) => 1 + SizeAll(ss)
    case If(_, t, e) => 1 + Size(t) + SizeOpt(e)
    case While(_, b) => 1 + Size(b)
    case DoWhile(_, b) => 1 + Size(b)
    case For(_, _, _, b) => 1 + Size(b)
    case ForIn(_, _, b) => 1 + Size(b)
    case Switch(_, cs) => 1 + SizeCases(cs)
    case With(_, b) => 1 + Size(b)
    case Try(t, cs, f) => 1 + Size(t) + SizeCatches(cs) + SizeOpt(f)
    case _ => 1
  }

  function SizeOpt(o: Option<Stmt>): nat {
    match o
    case None => 0
    case Some(s) => Size(s)
  }

  function SizeAll(ss: seq<Stmt>): nat {
    if ss == [] then 0 else Size(ss[0]) + SizeAll(ss[1..])
  }

  function SizeCase(c: Case): nat { 1 + SizeAll(c.stmts) }

  function SizeCases(cs: seq<Case>): nat {
    if cs == [] then 0 else SizeCase(cs[0]) + SizeCases(cs[1..])
  }

  function SizeCatch(c: Catch): nat { 1 + Size(c.body) }

  function SizeCatches(cs: seq<Catch>): nat {
    if cs == [] then 0 else SizeCatch(cs[0]) + SizeCatches(cs[1..])
  }

  /**
   * Whether the builder produces a fragment for `s`: only function
   * declarations and blocks with nothing but those (or nothing at all)
   * produce none.
   */
  predicate Yields(s: Stmt) {
    match s
    case Block(ss) => YieldsAny(ss)
    case FunctionDecl(_, _) => false
    case _ => true
  }

  predicate YieldsAny(ss: seq<Stmt>) {
    ss != [] && (Yields(ss[0]) || YieldsAny(ss[1..]))
  }

  /**
   * Every switch the builder reaches has at least one case: with none, the
   * switch rule dereferences a null "previous case" fragment.
   */
  predicate Buildable(s: Stmt) {
    match s
    case Block(ss) => AllBuildable(ss)
    case If(_, t, e) => Buildable(t) && OptBuildable(e)
    case While(_, b) => Buildable(b)
    case DoWhile(_, b) => Buildable(b)
    case For(_, _, _, b) => Buildable(b)
    case ForIn(_, _, b) => Buildable(b)
    case Switch(_, cs) => cs != [] && CasesBuildable(cs)
    case With(_, b) => Buildable(b)
    case Try(t, cs, f) => Buildable(t) && CatchesBuildable(cs) && OptBuildable(f)
    case _ => true
  }

  predicate OptBuildable(o: Option<Stmt>) {
    match o
    case None => true
    case Some(s) => Buildable(s)
  }

  predicate AllBuildable(ss: seq<Stmt>) {
    ss == [] || (Buildable(ss[0]) && AllBuildable(ss[1..]))
  }

  predicate CasesBuildable(cs: seq<Case>) {
    cs == [] || (AllBuildable(cs[0].stmts) && CasesBuildable(cs[1..]))
  }

  predicate CatchesBuildable(cs: seq<Catch>) {
    cs == [] || (CatchBuildable(cs[0]) && CatchesBuildable(cs[1..]))
  }

  predicate CatchBuildable(c: Catch) { Buildable(c.body) }

  // ---------------------------------------------------------------------
  // Single-node rules
  // ---------------------------------------------------------------------

  /** A fresh node that is its own entry and only normal exit. */
  function Lone(id: NodeId, p: Payload): (r: Fragment)
    ensures Good(r, id) && r.Limit() == id + 1
    ensures r.entry == id && r.exitNodes == {id} && r.At(id) == p
    ensures r.returnNodes == {} && r.breakNodes == {} && r.continueNodes == {}
    ensures r.edges == {} && r.merges == {}
  {
    Fragment(id, {id}, {}, {}, {}, id, [p], {}, {})
  }

  /** The fabricated empty fragment used where a branch builds nothing. */
  function OrEmpty(r: Option<Fragment>, next: NodeId): (f: Fragment)
    ensures (r.Some? ==> Good(r.value, next)) ==> Good(f, next)
    ensures r.Some? ==> f == r.value
    ensures r.None? ==> f == Lone(next, Plain(EmptyMarker))
  {
    if r.Some? then r.value else Lone(next, Plain(EmptyMarker))
  }

  /** A leaf statement: one node, entry and sole normal exit. */
  function LeafStmt(s: Stmt, id: NodeId): (r: Fragment)
    ensures Good(r, id) && r.Limit() == id + 1
    ensures r.entry == id && r.exitNodes == {id} && r.At(id) == Plain(Statement(s))
    ensures r.returnNodes == {} && r.breakNodes == {} && r.continueNodes == {}
    ensures r.edges == {}
  {
    Lone(id, Plain(Statement(s)))
  }

  /**
   * A break, continue or return: one jump node that is the entry and the
   * only member of the matching jump set, with no normal exit and no edge.
   */
  function JumpStmt(s: Stmt, id: NodeId): (r: Fragment)
    requires s.Break? || s.Continue? || s.Return?
    ensures Good(r, id) && r.Limit() == id + 1
    ensures r.entry == id && r.exitNodes == {} && r.edges == {}
    ensures r.At(id) == Jump(s)
    ensures r.breakNodes == (if s.Break? then {id} else {})
    ensures r.continueNodes == (if s.Continue? then {id} else {})
    ensures r.returnNodes == (if s.Return? then {id} else {})
  {
    var f := Fragment(id, {}, {}, {}, {}, id, [Jump(s)], {}, {});
    if s.Break? then f.(breakNodes := {id})
    else if s.Continue? then f.(continueNodes := {id})
    else f.(returnNodes := {id})
  }

  // ---------------------------------------------------------------------
  // Blocks
  // ---------------------------------------------------------------------

  /**
   * Sequential composition of two block members: the first one's normal
   * exits get an unguarded edge to the second's entry; the block's exits
   * are the second's; the jump sets are united.
   */
  function Then(a: Fragment, b: Fragment): (r: Fragment)
    requires Good(a, a.base) && Good(b, a.Limit())
    ensures Good(r, a.base) && r.Limit() == b.Limit()
    ensures r.entry == a.entry && r.exitNodes == b.exitNodes
    ensures r.returnNodes == a.returnNodes + b.returnNodes
    ensures r.breakNodes == a.breakNodes + b.breakNodes
    ensures r.continueNodes == a.continueNodes + b.continueNodes
    ensures forall e :: e in r.edges <==>
      e in a.edges || e in b.edges || (e.src in a.exitNodes && e.dst == b.entry && e.guard == None)
    ensures r.merges == a.merges + b.merges
    ensures PayloadsKept(a, r) && PayloadsKept(b, r)
  {
    var r := Fragment(
      a.entry, b.exitNodes,
      a.returnNodes + b.returnNodes, a.breakNodes + b.breakNodes, a.continueNodes + b.continueNodes,
      a.base, a.nodes + b.nodes,
      a.edges + b.edges + Wire(a.exitNodes, b.entry), a.merges + b.merges);
    assert PayloadsKept(a, r) && PayloadsKept(b, r) by { Joined(a, b, r); }
    r
  }

  // ---------------------------------------------------------------------
  // Branches
  // ---------------------------------------------------------------------

  /**
   * An if statement whose branches are `t` and `e` (each already replaced
   * by a fresh empty node when it built nothing). The negated edge is built
   * from the else part and leads to the THEN entry, as the source does, so
   * no edge enters the else branch from outside it.
   */
  function IfStmt(cond: Expr, elsePart: Option<Stmt>, head: NodeId, t: Fragment, e: Fragment): (r: Fragment)
    requires Good(t, head + 1) && Good(e, t.Limit())
    ensures Good(r, head) && r.Limit() == e.Limit()
    ensures r.entry == head && r.At(head) == Plain(EmptyMarker)
    ensures OutEdges(r, head) ==
      {Edge(head, t.entry, Some(Holds(cond))), Edge(head, t.entry, Some(Not(ElsePart(elsePart))))}
    ensures forall ed :: ed in r.edges && e.Owns(ed.dst) ==> e.Owns(ed.src)
    ensures r.exitNodes == t.exitNodes + e.exitNodes
    ensures r.returnNodes == t.returnNodes + e.returnNodes
    ensures r.breakNodes == t.breakNodes + e.breakNodes
    ensures r.continueNodes == t.continueNodes + e.continueNodes
    ensures forall ed :: ed in r.edges <==>
      ed in t.edges || ed in e.edges
        || ed == Edge(head, t.entry, Some(Holds(cond))) || ed == Edge(head, t.entry, Some(Not(ElsePart(elsePart))))
    ensures r.merges == t.merges + e.merges
    ensures PayloadsKept(t, r) && PayloadsKept(e, r)
  {
    var r := Fragment(
      head,
      t.exitNodes + e.exitNodes, t.returnNodes + e.returnNodes,
      t.breakNodes + e.breakNodes, t.continueNodes + e.continueNodes,
      head, [Plain(EmptyMarker)] + t.nodes + e.nodes,
      t.edges + e.edges + {Edge(head, t.entry, Some(Holds(cond))), Edge(head, t.entry, Some(Not(ElsePart(elsePart))))},
      t.merges + e.merges);
    Spliced([Plain(EmptyMarker)], t, e.nodes, r);
    Suffixed([Plain(EmptyMarker)] + t.nodes, e, r);
    r
  }

  // ---------------------------------------------------------------------
  // Loops
  // ---------------------------------------------------------------------

  /**
   * A while loop: the head has the condition edge into the body and the
   * negated-condition edge to a fresh node allocated after the body. The
   * body's normal exits and continues edge back to the head. The body's
   * normal exits AND its breaks become the loop's exits, and the body's
   * returns are dropped, as the source does.
   */
  function WhileLoop(cond: Expr, head: NodeId, b: Fragment): (r: Fragment)
    requires Good(b, head + 1)
    ensures Good(r, head) && r.Limit() == b.Limit() + 1
    ensures r.entry == head && r.At(head) == Plain(EmptyMarker) && r.At(b.Limit()) == Plain(EmptyMarker)
    ensures OutEdges(r, head) ==
      {Edge(head, b.entry, Some(Holds(cond))), Edge(head, b.Limit(), Some(Not(Holds(cond))))}
    ensures forall ed :: ed in r.edges && ed.dst == head <==>
      ed.src in b.exitNodes + b.continueNodes && ed.dst == head && ed.guard == None
    ensures r.exitNodes == b.exitNodes + b.breakNodes + {b.Limit()}
    ensures r.returnNodes == {} && r.breakNodes == {} && r.continueNodes == {}
    ensures forall ed :: ed in r.edges <==>
      ed in b.edges || (ed.src in b.exitNodes + b.continueNodes && ed.dst == head && ed.guard == None)
        || ed == Edge(head, b.entry, Some(Holds(cond))) || ed == Edge(head, b.Limit(), Some(Not(Holds(cond))))
    ensures r.merges == b.merges && PayloadsKept(b, r)
  {
    var exit := b.Limit();
    var r := Fragment(
      head, b.exitNodes + b.breakNodes + {exit}, {}, {}, {},
      head, [Plain(EmptyMarker)] + b.nodes + [Plain(EmptyMarker)],
      b.edges + Wire(b.exitNodes + b.continueNodes, head)
        + {Edge(head, b.entry, Some(Holds(cond))), Edge(head, exit, Some(Not(Holds(cond))))},
      b.merges);
    Spliced([Plain(EmptyMarker)], b, [Plain(EmptyMarker)], r);
    r
  }

  /**
   * A do loop: an entry node with one unguarded edge into the body, then a
   * condition node (allocated second) that the body's normal exits and
   * continues reach, with the condition edge back to the body and the
   * negated edge to a fresh exit node. Body breaks become exits and body
   * returns propagate.
   */
  function DoLoop(cond: Expr, head: NodeId, b: Fragment): (r: Fragment)
    requires Good(b, head + 2)
    ensures Good(r, head) && r.Limit() == b.Limit() + 1
    ensures r.entry == head && r.At(head) == Plain(EmptyMarker) && r.At(head + 1) == Plain(EmptyMarker)
    ensures r.At(b.Limit()) == Plain(EmptyMarker)
    ensures OutEdges(r, head) == {Edge(head, b.entry, None)}
    ensures OutEdges(r, head + 1) ==
      {Edge(head + 1, b.entry, Some(Holds(cond))), Edge(head + 1, b.Limit(), Some(Not(Holds(cond))))}
    ensures forall ed :: ed in r.edges && ed.dst == head + 1 <==>
      ed.src in b.exitNodes + b.continueNodes && ed.dst == head + 1 && ed.guard == None
    ensures r.exitNodes == b.breakNodes + {b.Limit()}
    ensures r.returnNodes == b.returnNodes && r.breakNodes == {} && r.continueNodes == {}
    ensures forall ed :: ed in r.edges <==>
      ed in b.edges || ed == Edge(head, b.entry, None)
        || (ed.src in b.exitNodes + b.continueNodes && ed.dst == head + 1 && ed.guard == None)
        || ed == Edge(head + 1, b.entry, Some(Holds(cond))) || ed == Edge(head + 1, b.Limit(), Some(Not(Holds(cond))))
    ensures r.merges == b.merges && PayloadsKept(b, r)
  {
    var exit := b.Limit();
    var r := Fragment(
      head, b.breakNodes + {exit}, b.returnNodes, {}, {},
      head, [Plain(EmptyMarker), Plain(EmptyMarker)] + b.nodes + [Plain(EmptyMarker)],
      b.edges + {Edge(head, b.entry, None)} + Wire(b.exitNodes + b.continueNodes, head + 1)
        + {Edge(head + 1, b.entry, Some(Holds(cond))), Edge(head + 1, exit, Some(Not(Holds(cond))))},
      b.merges);
    Spliced([Plain(EmptyMarker), Plain(EmptyMarker)], b, [Plain(EmptyMarker)], r);
    r
  }

  /**
   * A for loop: a while loop whose head wraps the initializer and whose
   * body's normal exits and continues go to an increment node, which edges
   * back to the head. Exits and dropped returns are as for while.
   */
  function ForLoop(init: Expr, cond: Expr, increment: Expr, head: NodeId, b: Fragment): (r: Fragment)
    requires Good(b, head + 2)
    ensures Good(r, head) && r.Limit() == b.Limit() + 1
    ensures r.entry == head && r.At(head) == Plain(Expression(init))
    ensures r.At(head + 1) == Plain(Expression(increment))
    ensures r.At(b.Limit()) == Plain(EmptyMarker)
    ensures OutEdges(r, head) ==
      {Edge(head, b.entry, Some(Holds(cond))), Edge(head, b.Limit(), Some(Not(Holds(cond))))}
    ensures OutEdges(r, head + 1) == {Edge(head + 1, head, None)}
    ensures forall ed :: ed in r.edges && ed.dst == head + 1 <==>
      ed.src in b.exitNodes + b.continueNodes && ed.dst == head + 1 && ed.guard == None
    ensures r.exitNodes == b.exitNodes + b.breakNodes + {b.Limit()}
    ensures r.returnNodes == {} && r.breakNodes == {} && r.continueNodes == {}
    ensures forall ed :: ed in r.edges <==>
      ed in b.edges || ed == Edge(head + 1, head, None)
        || (ed.src in b.exitNodes + b.continueNodes && ed.dst == head + 1 && ed.guard == None)
        || ed == Edge(head, b.entry, Some(Holds(cond))) || ed == Edge(head, b.Limit(), Some(Not(Holds(cond))))
    ensures r.merges == b.merges && PayloadsKept(b, r)
  {
    var exit := b.Limit();
    var r := Fragment(
      head, b.exitNodes + b.breakNodes + {exit}, {}, {}, {},
      head, [Plain(Expression(init)), Plain(Expression(increment))] + b.nodes + [Plain(EmptyMarker)],
      {Edge(head + 1, head, None)} + b.edges + Wire(b.exitNodes + b.continueNodes, head + 1)
        + {Edge(head, b.entry, Some(Holds(cond))), Edge(head, exit, Some(Not(Holds(cond))))},
      b.merges);
    Spliced([Plain(Expression(init)), Plain(Expression(increment))], b, [Plain(EmptyMarker)], r);
    r
  }

  /**
   * The variable a for-in loop assigns: the first declared variable, the
   * name itself, or the placeholder name `~error~` for anything else.
   */
  function KeyTarget(variable: Expr): (r: Expr)
    ensures r.Name?
    ensures variable.Name? ==> r == variable
    ensures variable.VarDecl? ==> r.id == variable.first
    ensures !variable.Name? && !variable.VarDecl? ==> r.id == "~error~"
  {
    match variable
    case VarDecl(first, _) => Name(first)
    case Name(_) => variable
    case OtherExpr(_) => Name("~error~")
  }

  /**
   * A for-in loop: the entry wraps the loop variable, the second node
   * assigns the next key, and the third (an empty condition node) edges
   * into the body on `~hasNextKey` and to a fresh exit node otherwise. The
   * body's normal exits and continues edge to the assignment node. As the
   * source does, no edge leaves the entry node or the assignment node, so
   * the condition node is never reached.
   */
  function ForInLoop(variable: Expr, iterated: Expr, head: NodeId, b: Fragment): (r: Fragment)
    requires Good(b, head + 3)
    ensures Good(r, head) && r.Limit() == b.Limit() + 1
    ensures r.entry == head && r.At(head) == Plain(Expression(variable))
    ensures r.At(head + 1) == Plain(NextKey(KeyTarget(variable), iterated))
    ensures r.At(head + 2) == Plain(EmptyMarker) && r.At(b.Limit()) == Plain(EmptyMarker)
    ensures OutEdges(r, head) == {} && OutEdges(r, head + 1) == {}
    ensures forall ed :: ed in r.edges ==> ed.dst != head + 2
    ensures OutEdges(r, head + 2) ==
      {Edge(head + 2, b.entry, Some(HasNextKey(iterated))), Edge(head + 2, b.Limit(), Some(Not(HasNextKey(iterated))))}
    ensures forall ed :: ed in r.edges && ed.dst == head + 1 <==>
      ed.src in b.exitNodes + b.continueNodes && ed.dst == head + 1 && ed.guard == None
    ensures r.exitNodes == b.breakNodes + {b.Limit()}
    ensures r.returnNodes == b.returnNodes && r.breakNodes == {} && r.continueNodes == {}
    ensures forall ed :: ed in r.edges <==>
      ed in b.edges || (ed.src in b.exitNodes + b.continueNodes && ed.dst == head + 1 && ed.guard == None)
        || ed == Edge(head + 2, b.entry, Some(HasNextKey(iterated)))
        || ed == Edge(head + 2, b.Limit(), Some(Not(HasNextKey(iterated))))
    ensures r.merges == b.merges && PayloadsKept(b, r)
  {
    var exit := b.Limit();
    var pre := [Plain(Expression(variable)), Plain(NextKey(KeyTarget(variable), iterated)), Plain(EmptyMarker)];
    var r := Fragment(
      head, b.breakNodes + {exit}, b.returnNodes, {}, {},
      head, pre + b.nodes + [Plain(EmptyMarker)],
      b.edges + Wire(b.exitNodes + b.continueNodes, head + 1)
        + {Edge(head + 2, b.entry, Some(HasNextKey(iterated))), Edge(head + 2, exit, Some(Not(HasNextKey(iterated))))},
      b.merges);
    Spliced(pre, b, [Plain(EmptyMarker)], r);
    r
  }

  // ---------------------------------------------------------------------
  // With
  // ---------------------------------------------------------------------

  /**
   * A with statement: the with node is the entry and a normal exit. When
   * the inner statement builds, its entry is recorded as the scope block
   * (no edge leads there) and its four sets propagate unchanged.
   */
  function WithStmt(scope: Expr, head: NodeId, inner: Option<Fragment>): (r: Fragment)
    requires inner.Some? ==> Good(inner.value, head + 1)
    ensures Good(r, head)
    ensures r.entry == head && OutEdges(r, head) == {}
    ensures inner.None? ==> r == Lone(head, WithHead(scope, None))
    ensures inner.Some? ==>
      && r.Limit() == inner.value.Limit() && r.At(head) == WithHead(scope, Some(inner.value.entry))
      && r.exitNodes == {head} + inner.value.exitNodes
      && r.returnNodes == inner.value.returnNodes
      && r.breakNodes == inner.value.breakNodes
      && r.continueNodes == inner.value.continueNodes
      && r.edges == inner.value.edges && r.merges == inner.value.merges
      && PayloadsKept(inner.value, r)
  {
    match inner
    case None => Lone(head, WithHead(scope, None))
    case Some(b) =>
      var r := Fragment(
        head, {head} + b.exitNodes, b.returnNodes, b.breakNodes, b.continueNodes,
        head, [WithHead(scope, Some(b.entry))] + b.nodes, b.edges, b.merges);
      Suffixed([WithHead(scope, Some(b.entry))], b, r);
      r
  }

  // ---------------------------------------------------------------------
  // Switch
  // ---------------------------------------------------------------------

  /**
   * Case (or catch) fragments built so far, placed one after another: the
   * combined fragment, the branch targets registered in order, and the
   * fragment built for each case or clause.
   */
  datatype Chain = Chain(frag: Fragment, targets: seq<Target>, parts: seq<Fragment>)

  /**
   * Appends case `b` after case `a`: `a`'s normal exits are merged into
   * `b`'s entry (fall-through), `b`'s exits are the chain's exits, and the
   * jump sets are united.
   */
  function FallThrough(a: Fragment, b: Fragment): (r: Fragment)
    requires Good(a, a.base) && Good(b, a.Limit())
    ensures Good(r, a.base) && r.Limit() == b.Limit()
    ensures r.entry == a.entry && r.exitNodes == b.exitNodes
    ensures r.returnNodes == a.returnNodes + b.returnNodes
    ensures r.breakNodes == a.breakNodes + b.breakNodes
    ensures r.continueNodes == a.continueNodes + b.continueNodes
    ensures r.edges == a.edges + b.edges
    ensures forall m :: m in r.merges <==> m in a.merges || m in b.merges || (m.node in a.exitNodes && m.into == b.entry)
    ensures PayloadsKept(a, r) && PayloadsKept(b, r)
  {
    var r := Fragment(
      a.entry, b.exitNodes,
      a.returnNodes + b.returnNodes, a.breakNodes + b.breakNodes, a.continueNodes + b.continueNodes,
      a.base, a.nodes + b.nodes, a.edges + b.edges,
      a.merges + b.merges + MergeAll(a.exitNodes, b.entry));
    assert PayloadsKept(a, r) && PayloadsKept(b, r) by { Joined(a, b, r); }
    r
  }

  /**
   * The shape of the chain built for cases `cs` from `next`: one part per
   * case, laid out one after another from `next`, each registered with its
   * test at its entry. Every part but the last falls through, its normal
   * exits merged into the next part's entry; the last part's normal exits
   * are the chain's; every part's jump nodes are kept.
   */
  ghost predicate CaseChain(r: Chain, cs: seq<Case>, next: NodeId) {
    && CaseEnds(r, cs, next) && CaseTargets(r, cs) && CaseJumps(r, cs)
    && CaseFalls(r, cs) && TargetsAscend(r.targets) && CaseSums(r)
  }

  /**
   * The chain is made of its parts and nothing else: its edges, jump nodes
   * and merges are the parts' together with the fall-through merges, and
   * every part's nodes keep their payloads.
   */
  ghost predicate CaseSums(r: Chain) {
    && r.frag.edges == EdgesOf(r.parts)
    && r.frag.merges == MergesOf(r.parts) + FallMerges(r.parts)
    && r.frag.returnNodes == ReturnsOf(r.parts) && r.frag.breakNodes == BreaksOf(r.parts)
    && r.frag.continueNodes == ContinuesOf(r.parts)
    && (forall i :: 0 <= i < |r.parts| ==> PayloadsKept(r.parts[i], r.frag))
  }

  /** Each part's normal exits merged into the next part's entry. */
  function FallMerges(ps: seq<Fragment>): set<Merge> {
    if |ps| < 2 then {} else MergeAll(ps[0].exitNodes, ps[1].entry) + FallMerges(ps[1..])
  }

  ghost predicate CaseEnds(r: Chain, cs: seq<Case>, next: NodeId) {
    && |r.targets| == |cs| == |r.parts| > 0
    && Good(r.frag, next) && r.parts[0].base == next
    && r.frag.exitNodes == r.parts[|cs| - 1].exitNodes && r.frag.Limit() == r.parts[|cs| - 1].Limit()
  }

  ghost predicate CaseTargets(r: Chain, cs: seq<Case>)
    requires |r.targets| == |cs| == |r.parts|
  {
    forall i :: 0 <= i < |cs| ==>
      && Good(r.parts[i], r.parts[i].base)
      && r.targets[i] == Target(cs[i].test, r.parts[i].entry)
      && r.frag.Owns(r.targets[i].node)
  }

  ghost predicate CaseJumps(r: Chain, cs: seq<Case>)
    requires |cs| == |r.parts|
  {
    forall i :: 0 <= i < |cs| ==>
      && r.parts[i].returnNodes <= r.frag.returnNodes && r.parts[i].breakNodes <= r.frag.breakNodes
      && r.parts[i].continueNodes <= r.frag.continueNodes
  }

  ghost predicate CaseFalls(r: Chain, cs: seq<Case>)
    requires |cs| == |r.parts|
  {
    forall i :: 0 <= i < |cs| - 1 ==>
      && r.parts[i + 1].base == r.parts[i].Limit()
      && MergeAll(r.parts[i].exitNodes, r.parts[i + 1].entry) <= r.frag.merges
  }

  /** Targets are registered at strictly increasing nodes. */
  ghost predicate TargetsAscend(ts: seq<Target>) {
    forall i, j :: 0 <= i < j < |ts| ==> ts[i].node < ts[j].node
  }

  /** The chain of a switch's last case. */
  function LastCase(cs: seq<Case>, c: Fragment): (r: Chain)
    requires |cs| == 1 && Good(c, c.base)
    ensures CaseChain(r, cs, c.base) && r.parts[0] == c
  {
    var r := Chain(c, [Target(cs[0].test, c.entry)], [c]);
    OneCaseShape(cs, c, r);
    OneCaseSums(c, r);
    r
  }

  lemma OneCaseShape(cs: seq<Case>, c: Fragment, r: Chain)
    requires |cs| == 1 && Good(c, c.base) && r == Chain(c, [Target(cs[0].test, c.entry)], [c])
    ensures CaseEnds(r, cs, c.base) && CaseTargets(r, cs) && CaseJumps(r, cs)
    ensures CaseFalls(r, cs) && TargetsAscend(r.targets)
  {
  }

  lemma OneCaseSums(c: Fragment, r: Chain)
    requires r.frag == c && r.parts == [c]
    ensures CaseSums(r)
  {
    assert [c][1..] == [];
    assert c.nodes[0..|c.nodes|] == c.nodes;
  }

  /** Case `c`, the first of `cs`, placed before the chain of the later cases. */
  function FallInto(cs: seq<Case>, c: Fragment, rest: Chain): (r: Chain)
    requires |cs| > 1 && Good(c, c.base) && CaseChain(rest, cs[1..], c.Limit())
    ensures CaseChain(r, cs, c.base) && r.parts[0] == c
  {
    var r := Chain(FallThrough(c, rest.frag), [Target(cs[0].test, c.entry)] + rest.targets, [c] + rest.parts);
    FallIntoShape(cs, c, rest, r);
    FallIntoSums(c, rest, r);
    r
  }

  lemma FallIntoShape(cs: seq<Case>, c: Fragment, rest: Chain, r: Chain)
    requires |cs| > 1 && Good(c, c.base) && CaseChain(rest, cs[1..], c.Limit())
    requires r == Chain(FallThrough(c, rest.frag), [Target(cs[0].test, c.entry)] + rest.targets, [c] + rest.parts)
    ensures CaseEnds(r, cs, c.base) && CaseTargets(r, cs) && CaseJumps(r, cs)
    ensures CaseFalls(r, cs) && TargetsAscend(r.targets)
  {
    FallIntoTargets(cs, c, rest, r);
    FallIntoJumps(cs, c, rest, r);
    FallIntoFalls(cs, c, rest, r);
    Ascends(c.entry, rest.targets, r.targets);
  }

  lemma FallIntoSums(c: Fragment, rest: Chain, r: Chain)
    requires Good(c, c.base) && Good(rest.frag, c.Limit()) && CaseSums(rest)
    requires |rest.parts| > 0 && rest.parts[0].entry == rest.frag.entry
    requires r.frag == FallThrough(c, rest.frag) && r.parts == [c] + rest.parts
    ensures CaseSums(r)
  {
    assert r.parts[1..] == rest.parts;
    forall i | 1 <= i < |r.parts|
      ensures PayloadsKept(r.parts[i], r.frag)
    {
      ConsAt(c, rest.parts, i);
      KeptTrans(rest.parts[i - 1], rest.frag, r.frag);
    }
  }

  lemma FallIntoTargets(cs: seq<Case>, c: Fragment, rest: Chain, r: Chain)
    requires |cs| > 1 && Good(c, c.base) && CaseEnds(rest, cs[1..], c.Limit()) && CaseTargets(rest, cs[1..])
    requires Good(r.frag, c.base) && r.frag.Limit() == rest.frag.Limit() && r.frag.exitNodes == rest.frag.exitNodes
    requires r.targets == [Target(cs[0].test, c.entry)] + rest.targets && r.parts == [c] + rest.parts
    ensures CaseEnds(r, cs, c.base) && CaseTargets(r, cs)
  {
    assert r.parts[|cs| - 1] == rest.parts[|cs| - 2];
    forall i | 1 <= i < |cs|
      ensures Good(r.parts[i], r.parts[i].base) && r.targets[i] == Target(cs[i].test, r.parts[i].entry)
        && r.frag.Owns(r.targets[i].node)
    {
      assert cs[i] == cs[1..][i - 1] && r.parts[i] == rest.parts[i - 1] && r.targets[i] == rest.targets[i - 1];
    }
  }

  lemma FallIntoJumps(cs: seq<Case>, c: Fragment, rest: Chain, r: Chain)
    requires |cs| > 1 && |rest.parts| == |cs| - 1 && CaseJumps(rest, cs[1..]) && r.parts == [c] + rest.parts
    requires c.returnNodes <= r.frag.returnNodes && c.breakNodes <= r.frag.breakNodes
    requires c.continueNodes <= r.frag.continueNodes
    requires rest.frag.returnNodes <= r.frag.returnNodes && rest.frag.breakNodes <= r.frag.breakNodes
    requires rest.frag.continueNodes <= r.frag.continueNodes
    ensures CaseJumps(r, cs)
  {
    forall i | 1 <= i < |cs|
      ensures r.parts[i].returnNodes <= r.frag.returnNodes && r.parts[i].breakNodes <= r.frag.breakNodes
        && r.parts[i].continueNodes <= r.frag.continueNodes
    {
      assert r.parts[i] == rest.parts[i - 1];
    }
  }

  lemma FallIntoFalls(cs: seq<Case>, c: Fragment, rest: Chain, r: Chain)
    requires |cs| > 1 && |rest.parts| == |cs| - 1 && CaseFalls(rest, cs[1..]) && r.parts == [c] + rest.parts
    requires rest.parts[0].base == c.Limit() && rest.parts[0].entry == rest.frag.entry
    requires MergeAll(c.exitNodes, rest.frag.entry) <= r.frag.merges && rest.frag.merges <= r.frag.merges
    ensures CaseFalls(r, cs)
  {
    forall i | 1 <= i < |cs| - 1
      ensures r.parts[i + 1].base == r.parts[i].Limit()
        && MergeAll(r.parts[i].exitNodes, r.parts[i + 1].entry) <= r.frag.merges
    {
      assert r.parts[i] == rest.parts[i - 1] && r.parts[i + 1] == rest.parts[i];
    }
  }

  /** Registering a target below every later one keeps the targets ascending. */
  lemma Ascends(first: NodeId, rest: seq<Target>, ts: seq<Target>)
    requires TargetsAscend(rest) && (forall i :: 0 <= i < |rest| ==> first < rest[i].node)
    requires |ts| == |rest| + 1 && ts[0].node == first && ts[1..] == rest
    ensures TargetsAscend(ts)
  {
    forall i, j | 0 <= i < j < |ts|
      ensures ts[i].node < ts[j].node
    {
      assert ts[j] == rest[j - 1];
      if i > 0 {
        assert ts[i] == rest[i - 1];
      }
    }
  }

  /**
   * A switch statement over its case chain: the switch node is the entry
   * and itself a normal exit, with the case targets registered on it and no
   * edges. Case breaks and the last case's exits become normal exits;
   * returns and continues propagate.
   */
  function SwitchStmt(scrutinee: Expr, head: NodeId, c: Chain): (r: Fragment)
    requires Good(c.frag, head + 1)
    ensures Good(r, head) && r.Limit() == c.frag.Limit()
    ensures r.entry == head && r.At(head) == SwitchHead(scrutinee, c.targets)
    ensures OutEdges(r, head) == {}
    ensures r.exitNodes == {head} + c.frag.breakNodes + c.frag.exitNodes
    ensures r.returnNodes == c.frag.returnNodes && r.continueNodes == c.frag.continueNodes
    ensures r.breakNodes == {}
    ensures r.edges == c.frag.edges && r.merges == c.frag.merges && PayloadsKept(c.frag, r)
  {
    var r := Fragment(
      head, {head} + c.frag.breakNodes + c.frag.exitNodes, c.frag.returnNodes, {}, c.frag.continueNodes,
      head, [SwitchHead(scrutinee, c.targets)] + c.frag.nodes, c.frag.edges, c.frag.merges);
    Suffixed([SwitchHead(scrutinee, c.targets)], c.frag, r);
    r
  }

  // ---------------------------------------------------------------------
  // Try
  // ---------------------------------------------------------------------

  /**
   * The try node followed by its finally fragment `fin`. The try node is a
   * normal exit; a finally block that was present (`present`) propagates
   * all four of its sets, a fabricated one nothing. The head's payload is
   * filled in by `TryStmt` once the branches are known.
   */
  function TryFinally(head: NodeId, fin: Fragment, present: bool): (r: Fragment)
    requires Good(fin, head + 1)
    ensures Good(r, head) && r.Limit() == fin.Limit() && r.Owns(fin.entry)
    ensures r.entry == head && OutEdges(r, head) == {}
    ensures r.exitNodes == {head} + (if present then fin.exitNodes else {})
    ensures r.returnNodes == (if present then fin.returnNodes else {})
    ensures r.breakNodes == (if present then fin.breakNodes else {})
    ensures r.continueNodes == (if present then fin.continueNodes else {})
    ensures r.edges == fin.edges && r.merges == fin.merges && PayloadsKept(fin, r)
  {
    var r := Fragment(
      head,
      {head} + (if present then fin.exitNodes else {}),
      if present then fin.returnNodes else {},
      if present then fin.breakNodes else {},
      if present then fin.continueNodes else {},
      head, [Plain(EmptyMarker)] + fin.nodes, fin.edges, fin.merges);
    Suffixed([Plain(EmptyMarker)], fin, r);
    r
  }

  /**
   * `next` is `acc` with `part` appended and nothing else: its edges, jump
   * nodes and merges are theirs, plus the merges of `part`'s normal exits
   * into `fin` when the block built (`builds`), and both keep their
   * payloads.
   */
  ghost predicate Absorbs(next: Fragment, acc: Fragment, part: Fragment, builds: bool, fin: NodeId) {
    && next.edges == acc.edges + part.edges
    && next.merges == acc.merges + part.merges + (if builds then MergeAll(part.exitNodes, fin) else {})
    && next.returnNodes == acc.returnNodes + part.returnNodes
    && next.breakNodes == acc.breakNodes + part.breakNodes
    && next.continueNodes == acc.continueNodes + part.continueNodes
    && PayloadsKept(acc, next) && PayloadsKept(part, next)
  }

  /**
   * Appends a try or catch block to the try statement `acc`. A block that
   * built (`Some`) propagates returns, breaks and continues, and its normal
   * exits are merged into the finally entry `fin` instead of becoming exits;
   * one that built nothing is replaced by a fresh empty node that
   * propagates nothing.
   */
  function Absorb(acc: Fragment, built: Option<Fragment>, fin: NodeId): (r: Fragment)
    requires Good(acc, acc.base) && acc.Owns(fin)
    requires built.Some? ==> Good(built.value, acc.Limit())
    ensures Good(r, acc.base) && r.Limit() == OrEmpty(built, acc.Limit()).Limit()
    ensures r.entry == acc.entry && r.exitNodes == acc.exitNodes
    ensures OutEdges(r, acc.entry) == OutEdges(acc, acc.entry)
    ensures built.Some? ==>
      && (forall n :: n in OrEmpty(built, acc.Limit()).exitNodes ==> Merge(n, fin) in r.merges && n !in r.exitNodes)
      && (forall n :: n in OrEmpty(built, acc.Limit()).returnNodes ==> n in r.returnNodes && Merge(n, fin) !in r.merges)
    ensures Absorbs(r, acc, OrEmpty(built, acc.Limit()), built.Some?, fin)
  {
    var part := OrEmpty(built, acc.Limit());
    var r := acc.(
      returnNodes := acc.returnNodes + part.returnNodes,
      breakNodes := acc.breakNodes + part.breakNodes,
      continueNodes := acc.continueNodes + part.continueNodes,
      nodes := acc.nodes + part.nodes,
      edges := acc.edges + part.edges,
      merges := acc.merges + part.merges + (if built.Some? then MergeAll(part.exitNodes, fin) else {}));
    Joined(acc, part, r);
    r
  }

  /**
   * The shape of the catch clauses `cs` absorbed into the try statement
   * `acc`: one part per clause is laid out after `acc`, each registered
   * with its condition at its entry. A clause that builds has its normal
   * exits merged into the finally entry `fin` and its jump nodes kept; one
   * that builds nothing is a fresh empty node.
   */
  ghost predicate CatchChain(r: Chain, cs: seq<Catch>, acc: Fragment, fin: NodeId) {
    && CatchEnds(r, cs, acc) && CatchTargets(r, cs, acc) && CatchLaid(r, cs)
    && CatchMerged(r, cs, fin) && TargetsAscend(r.targets) && CatchSums(r, cs, acc, fin)
  }

  /**
   * The try statement is `acc` and the clauses' parts and nothing else:
   * its edges, jump nodes and merges are theirs together with the merges
   * of the building clauses' exits into `fin`, and `acc` and every part
   * keep their payloads.
   */
  ghost predicate CatchSums(r: Chain, cs: seq<Catch>, acc: Fragment, fin: NodeId) {
    && r.frag.edges == acc.edges + EdgesOf(r.parts)
    && r.frag.merges == acc.merges + MergesOf(r.parts) + FinMerges(cs, r.parts, fin)
    && r.frag.returnNodes == acc.returnNodes + ReturnsOf(r.parts)
    && r.frag.breakNodes == acc.breakNodes + BreaksOf(r.parts)
    && r.frag.continueNodes == acc.continueNodes + ContinuesOf(r.parts)
    && PayloadsKept(acc, r.frag)
    && (forall i :: 0 <= i < |r.parts| ==> PayloadsKept(r.parts[i], r.frag))
  }

  /** The normal exits of the parts of the clauses that build, merged into `fin`. */
  function FinMerges(cs: seq<Catch>, ps: seq<Fragment>, fin: NodeId): set<Merge> {
    if cs == [] || ps == [] then {}
    else (if Yields(cs[0].body) then MergeAll(ps[0].exitNodes, fin) else {}) + FinMerges(cs[1..], ps[1..], fin)
  }

  ghost predicate CatchEnds(r: Chain, cs: seq<Catch>, acc: Fragment) {
    && |r.targets| == |cs| == |r.parts|
    && r.frag.base == acc.base
    && (cs == [] ==> r.frag == acc)
    && (cs != [] ==> r.parts[0].base == acc.Limit() && r.frag.Limit() == r.parts[|cs| - 1].Limit())
  }

  ghost predicate CatchTargets(r: Chain, cs: seq<Catch>, acc: Fragment)
    requires |r.targets| == |cs| == |r.parts|
  {
    forall i :: 0 <= i < |cs| ==>
      && Good(r.parts[i], r.parts[i].base)
      && r.targets[i] == Target(cs[i].condition, r.parts[i].entry)
      && acc.Limit() <= r.targets[i].node && r.frag.Owns(r.targets[i].node)
  }

  ghost predicate CatchLaid(r: Chain, cs: seq<Catch>)
    requires |cs| == |r.parts|
  {
    forall i :: 0 <= i < |cs| - 1 ==> r.parts[i + 1].base == r.parts[i].Limit()
  }

  ghost predicate CatchMerged(r: Chain, cs: seq<Catch>, fin: NodeId)
    requires |cs| == |r.parts|
  {
    && (forall i :: 0 <= i < |cs| && Yields(cs[i].body) ==>
          && MergeAll(r.parts[i].exitNodes, fin) <= r.frag.merges
          && r.parts[i].returnNodes <= r.frag.returnNodes && r.parts[i].breakNodes <= r.frag.breakNodes
          && r.parts[i].continueNodes <= r.frag.continueNodes)
    && (forall i :: 0 <= i < |cs| && !Yields(cs[i].body) ==>
          r.parts[i] == Lone(r.parts[i].base, Plain(EmptyMarker)))
  }

  /**
   * What absorbing the clause that built `built` right after `acc` into
   * `acc` gives `next`: the same base, the clause's ids, and, when the
   * clause built, its exits merged into `fin` and its jump nodes.
   */
  ghost predicate AbsorbedInto(next: Fragment, acc: Fragment, built: Option<Fragment>, fin: NodeId) {
    && next.base == acc.base && next.Limit() == (if built.Some? then built.value.Limit() else acc.Limit() + 1)
    && (built.Some? ==>
          && MergeAll(built.value.exitNodes, fin) <= next.merges
          && built.value.returnNodes <= next.returnNodes && built.value.breakNodes <= next.breakNodes
          && built.value.continueNodes <= next.continueNodes)
  }

  /** What the chain `rest` keeps of the fragment `next` it was absorbed into. */
  ghost predicate Keeps(rest: Chain, next: Fragment) {
    && next.merges <= rest.frag.merges
    && next.returnNodes <= rest.frag.returnNodes && next.breakNodes <= rest.frag.breakNodes
    && next.continueNodes <= rest.frag.continueNodes
  }

  /**
   * Clause `cs[0]`, which built `built` right after `acc`, placed before
   * the chain `rest` of the later clauses, absorbed after it into `next`.
   */
  function AbsorbClause(cs: seq<Catch>, acc: Fragment, built: Option<Fragment>, fin: NodeId, next: Fragment, rest: Chain): (r: Chain)
    requires cs != [] && Good(acc, acc.base)
    requires built.Some? ==> Good(built.value, acc.Limit())
    requires built.Some? <==> Yields(cs[0].body)
    requires AbsorbedInto(next, acc, built, fin) && CatchChain(rest, cs[1..], next, fin) && Keeps(rest, next)
    requires Absorbs(next, acc, OrEmpty(built, acc.Limit()), built.Some?, fin)
    ensures CatchChain(r, cs, acc, fin) && r.parts[0] == OrEmpty(built, acc.Limit())
  {
    var part := OrEmpty(built, acc.Limit());
    var r := Chain(rest.frag, [Target(cs[0].condition, part.entry)] + rest.targets, [part] + rest.parts);
    AbsorbClauseChain(cs, acc, built, fin, next, rest, part, r);
    r
  }

  lemma AbsorbClauseChain(cs: seq<Catch>, acc: Fragment, built: Option<Fragment>, fin: NodeId, next: Fragment, rest: Chain, part: Fragment, r: Chain)
    requires cs != [] && Good(acc, acc.base)
    requires built.Some? ==> Good(built.value, acc.Limit())
    requires built.Some? <==> Yields(cs[0].body)
    requires AbsorbedInto(next, acc, built, fin) && CatchChain(rest, cs[1..], next, fin) && Keeps(rest, next)
    requires Absorbs(next, acc, OrEmpty(built, acc.Limit()), built.Some?, fin)
    requires part == OrEmpty(built, acc.Limit())
    requires r == Chain(rest.frag, [Target(cs[0].condition, part.entry)] + rest.targets, [part] + rest.parts)
    ensures CatchChain(r, cs, acc, fin)
  {
    AbsorbClauseEnds(cs, acc, part, next, rest, r);
    AbsorbClauseMerged(cs, part, built.Some?, fin, next, rest, r);
    AbsorbClauseSums(cs, acc, part, built.Some?, fin, next, rest, r);
  }

  lemma AbsorbClauseSums(cs: seq<Catch>, acc: Fragment, part: Fragment, builds: bool, fin: NodeId, next: Fragment, rest: Chain, r: Chain)
    requires cs != [] && builds == Yields(cs[0].body)
    requires Absorbs(next, acc, part, builds, fin) && CatchSums(rest, cs[1..], next, fin)
    requires r.frag == rest.frag && r.parts == [part] + rest.parts
    ensures CatchSums(r, cs, acc, fin)
  {
    assert r.parts[1..] == rest.parts;
    KeptTrans(acc, next, r.frag);
    KeptTrans(part, next, r.frag);
    forall i | 1 <= i < |r.parts|
      ensures PayloadsKept(r.parts[i], r.frag)
    {
      ConsAt(part, rest.parts, i);
    }
  }

  lemma AbsorbClauseEnds(cs: seq<Catch>, acc: Fragment, part: Fragment, next: Fragment, rest: Chain, r: Chain)
    requires cs != [] && Good(part, acc.Limit()) && next.base == acc.base && next.Limit() == part.Limit()
    requires CatchEnds(rest, cs[1..], next) && CatchTargets(rest, cs[1..], next) && CatchLaid(rest, cs[1..])
    requires TargetsAscend(rest.targets)
    requires r.frag == rest.frag && r.targets == [Target(cs[0].condition, part.entry)] + rest.targets
    requires r.parts == [part] + rest.parts
    ensures CatchEnds(r, cs, acc) && CatchTargets(r, cs, acc) && CatchLaid(r, cs) && TargetsAscend(r.targets)
  {
    if |cs| > 1 {
      assert r.parts[|cs| - 1] == rest.parts[|cs| - 2];
    }
    forall i | 1 <= i < |cs|
      ensures Good(r.parts[i], r.parts[i].base) && r.targets[i] == Target(cs[i].condition, r.parts[i].entry)
        && acc.Limit() <= r.targets[i].node && r.frag.Owns(r.targets[i].node)
    {
      ConsAt(cs[0], cs[1..], i);
      ConsAt(part, rest.parts, i);
      ConsAt(r.targets[0], rest.targets, i);
    }
    forall i | 1 <= i < |cs| - 1
      ensures r.parts[i + 1].base == r.parts[i].Limit()
    {
      ConsAt(part, rest.parts, i);
      ConsAt(part, rest.parts, i + 1);
    }
    Ascends(part.entry, rest.targets, r.targets);
  }

  lemma AbsorbClauseMerged(cs: seq<Catch>, part: Fragment, builds: bool, fin: NodeId, next: Fragment, rest: Chain, r: Chain)
    requires cs != [] && builds == Yields(cs[0].body)
    requires builds ==>
      && MergeAll(part.exitNodes, fin) <= next.merges && part.returnNodes <= next.returnNodes
      && part.breakNodes <= next.breakNodes && part.continueNodes <= next.continueNodes
    requires !builds ==> part == Lone(part.base, Plain(EmptyMarker))
    requires Keeps(rest, next) && CatchEnds(rest, cs[1..], next) && CatchMerged(rest, cs[1..], fin)
    requires r.frag == rest.frag && r.parts == [part] + rest.parts
    ensures CatchMerged(r, cs, fin)
  {
    forall i | 1 <= i < |cs|
      ensures cs[i] == cs[1..][i - 1] && r.parts[i] == rest.parts[i - 1]
    {
      ConsAt(cs[0], cs[1..], i);
      ConsAt(part, rest.parts, i);
    }
  }

  lemma ConsAt<T>(x: T, xs: seq<T>, i: int)
    requires 1 <= i <= |xs|
    ensures ([x] + xs)[i] == xs[i - 1]
  {
  }


  /** Fills in the try node's payload once its branches are known. */
  function TryStmt(acc: Fragment, tryBranch: NodeId, finallyBranch: NodeId, catches: seq<Target>): (r: Fragment)
    requires Good(acc, acc.base) && acc.entry == acc.base
    ensures Good(r, acc.base) && r.Limit() == acc.Limit()
    ensures r.At(r.entry) == TryHead(tryBranch, finallyBranch, catches)
    ensures r == acc.(nodes := r.nodes)
    ensures forall n :: acc.Owns(n) && n != acc.entry ==> r.At(n) == acc.At(n)
  {
    acc.(nodes := [TryHead(tryBranch, finallyBranch, catches)] + acc.nodes[1..])
  }

  // ---------------------------------------------------------------------
  // Dispatch: the structural induction over statements
  // ---------------------------------------------------------------------

  /**
   * The fragment for `s`, with fresh ids from `next` on; None for a
   * function declaration and for a block that builds nothing. The next
   * free id afterwards is the result's `Limit()`.
   */
  function Build(s: Stmt, next: NodeId): (r: Option<Fragment>)
    requires Buildable(s)
    ensures r.Some? <==> Yields(s)
    ensures r.Some? ==> Good(r.value, next)
    decreases Size(s), 1
  {
    match s
    case Block(ss) => BuildBlock(ss, next)
    case If(_, _, _) => Some(BuildIf(s, next))
    case While(_, _) => Some(BuildWhile(s, next))
    case DoWhile(_, _) => Some(BuildDo(s, next))
    case For(_, _, _, _) => Some(BuildFor(s, next))
    case ForIn(_, _, _) => Some(BuildForIn(s, next))
    case Switch(_, _) => Some(BuildSwitch(s, next))
    case With(_, _) => Some(BuildWith(s, next))
    case Try(_, _, _) => Some(BuildTry(s, next))
    case Break(_) => Some(JumpStmt(s, next))
    case Continue(_) => Some(JumpStmt(s, next))
    case Return(_) => Some(JumpStmt(s, next))
    case FunctionDecl(_, _) => None
    case Leaf(_) => Some(LeafStmt(s, next))
  }

  /**
   * A block: the statements that build are chained in order with `Then`;
   * those that build nothing are skipped.
   */
  function BuildBlock(ss: seq<Stmt>, next: NodeId): (r: Option<Fragment>)
    requires AllBuildable(ss)
    ensures r.Some? <==> YieldsAny(ss)
    ensures r.Some? ==> Good(r.value, next)
    decreases SizeAll(ss), 2
  {
    if ss == [] then None
    else
      var first := Build(ss[0], next);
      if first.None? then BuildBlock(ss[1..], next)
      else
        var rest := BuildBlock(ss[1..], first.value.Limit());
        if rest.None? then first else Some(Then(first.value, rest.value))
  }

  /** An optional branch: nothing when it is absent. */
  function BuildOpt(o: Option<Stmt>, next: NodeId): (r: Option<Fragment>)
    requires OptBuildable(o)
    ensures r.Some? <==> o.Some? && Yields(o.value)
    ensures r.Some? ==> Good(r.value, next)
    decreases SizeOpt(o), 2
  {
    match o
    case None => None
    case Some(s) => Build(s, next)
  }

  function BuildIf(s: Stmt, head: NodeId): (r: Fragment)
    requires s.If? && Buildable(s)
    ensures Good(r, head)
    decreases Size(s), 0
  {
    var t := OrEmpty(Build(s.thenPart, head + 1), head + 1);
    var e := OrEmpty(BuildOpt(s.elsePart, t.Limit()), t.Limit());
    IfStmt(s.cond, s.elsePart, head, t, e)
  }

  function BuildWhile(s: Stmt, head: NodeId): (r: Fragment)
    requires s.While? && Buildable(s)
    ensures Good(r, head)
    decreases Size(s), 0
  {
    WhileLoop(s.cond, head, OrEmpty(Build(s.body, head + 1), head + 1))
  }

  function BuildDo(s: Stmt, head: NodeId): (r: Fragment)
    requires s.DoWhile? && Buildable(s)
    ensures Good(r, head)
    decreases Size(s), 0
  {
    DoLoop(s.cond, head, OrEmpty(Build(s.body, head + 2), head + 2))
  }

  function BuildFor(s: Stmt, head: NodeId): (r: Fragment)
    requires s.For? && Buildable(s)
    ensures Good(r, head)
    decreases Size(s), 0
  {
    ForLoop(s.init, s.cond, s.increment, head, OrEmpty(Build(s.body, head + 2), head + 2))
  }

  function BuildForIn(s: Stmt, head: NodeId): (r: Fragment)
    requires s.ForIn? && Buildable(s)
    ensures Good(r, head)
    decreases Size(s), 0
  {
    ForInLoop(s.variable, s.iterated, head, OrEmpty(Build(s.body, head + 3), head + 3))
  }

  function BuildWith(s: Stmt, head: NodeId): (r: Fragment)
    requires s.With? && Buildable(s)
    ensures Good(r, head)
    decreases Size(s), 0
  {
    WithStmt(s.scope, head, Build(s.body, head + 1))
  }

  function BuildSwitch(s: Stmt, head: NodeId): (r: Fragment)
    requires s.Switch? && Buildable(s)
    ensures Good(r, head)
    decreases Size(s), 0
  {
    SwitchStmt(s.scrutinee, head, BuildCases(s.cases, head + 1))
  }

  /** One case of a switch, built as a block (a fresh empty node when it builds nothing). */
  function CaseFrag(c: Case, next: NodeId): (r: Fragment)
    requires AllBuildable(c.stmts)
    ensures Good(r, next)
    decreases SizeCase(c), 1
  {
    OrEmpty(BuildBlock(c.stmts, next), next)
  }

  /** The cases of a switch in order, with one target registered per case. */
  function BuildCases(cs: seq<Case>, next: NodeId): (r: Chain)
    requires cs != [] && CasesBuildable(cs)
    ensures CaseChain(r, cs, next) && r.parts[0] == CaseFrag(cs[0], next)
    decreases SizeCases(cs), 2
  {
    assert SizeCases(cs) == 1 + SizeAll(cs[0].stmts) + SizeCases(cs[1..]);
    var c := CaseFrag(cs[0], next);
    if |cs| == 1 then LastCase(cs, c)
    else FallInto(cs, c, BuildCases(cs[1..], c.Limit()))
  }

  function BuildTry(s: Stmt, head: NodeId): (r: Fragment)
    requires s.Try? && Buildable(s)
    ensures Good(r, head)
    decreases Size(s), 0
  {
    var built := BuildOpt(s.finallyBlock, head + 1);
    var fin := OrEmpty(built, head + 1);
    var acc := TryFinally(head, fin, built.Some?);
    var tryBuilt := Build(s.tryBlock, acc.Limit());
    var tryEntry := OrEmpty(tryBuilt, acc.Limit()).entry;
    var c := BuildCatches(s.catches, Absorb(acc, tryBuilt, fin.entry), fin.entry);
    TryStmt(c.frag, tryEntry, fin.entry, c.targets)
  }

  /**
   * The catch clauses in order, each absorbed into the try statement `acc`
   * with `Absorb`, with one target registered per clause.
   */
  function BuildCatches(cs: seq<Catch>, acc: Fragment, fin: NodeId): (r: Chain)
    requires CatchesBuildable(cs) && Good(acc, acc.base) && acc.Owns(fin)
    ensures Good(r.frag, acc.base) && r.frag.entry == acc.entry && r.frag.exitNodes == acc.exitNodes
    ensures OutEdges(r.frag, acc.entry) == OutEdges(acc, acc.entry)
    ensures acc.returnNodes <= r.frag.returnNodes && acc.breakNodes <= r.frag.breakNodes
    ensures acc.continueNodes <= r.frag.continueNodes && acc.merges <= r.frag.merges
    ensures CatchChain(r, cs, acc, fin)
    decreases SizeCatches(cs), 2
  {
    if cs == [] then Chain(acc, [], [])
    else
      assert CatchBuildable(cs[0]) && SizeCatches(cs) == 1 + Size(cs[0].body) + SizeCatches(cs[1..]);
      var built := Build(cs[0].body, acc.Limit());
      var next := Absorb(acc, built, fin);
      AbsorbClause(cs, acc, built, fin, next, BuildCatches(cs[1..], next, fin))
  }

  // ---------------------------------------------------------------------
  // Script and function CFGs
  // ---------------------------------------------------------------------

  /** The body's statements must build something: an empty body is dereferenced. */
  predicate BodyBuildable(body: seq<Stmt>) {
    AllBuildable(body) && YieldsAny(body)
  }

  /**
   * The CFG around a body fragment `b`: a fresh entry and a fresh exit (ids
   * `next` and `next + 1`, allocated before the body), the entry's single
   * unguarded edge to the body, and an unguarded edge from every normal
   * exit of the body to the exit, which is the CFG's only declared exit.
   * Return nodes (and stray breaks and continues) of the body are not
   * wired to the exit.
   */
  function ScriptWrap(next: NodeId, b: Fragment): (r: Fragment)
    requires Good(b, next + 2)
    ensures Good(r, next) && r.Limit() == b.Limit()
    ensures r.entry == next && r.exitNodes == {next + 1}
    ensures r.At(next) == Plain(EmptyMarker) && r.At(next + 1) == Plain(EmptyMarker)
    ensures r.returnNodes == {} && r.breakNodes == {} && r.continueNodes == {}
    ensures OutEdges(r, next) == {Edge(next, b.entry, None)}
    ensures OutEdges(r, next + 1) == {}
    ensures forall e :: e in r.edges && e.dst == next + 1 <==>
      e.src in b.exitNodes && e.dst == next + 1 && e.guard == None
    ensures forall e :: e in r.edges && e.src in b.returnNodes + b.breakNodes + b.continueNodes ==>
      e.dst != next + 1
    ensures forall e :: e in r.edges <==>
      e in b.edges || e == Edge(next, b.entry, None) || (e.src in b.exitNodes && e.dst == next + 1 && e.guard == None)
    ensures r.merges == b.merges && PayloadsKept(b, r)
  {
    var r := Fragment(
      next, {next + 1}, {}, {}, {},
      next, [Plain(EmptyMarker), Plain(EmptyMarker)] + b.nodes,
      b.edges + {Edge(next, b.entry, None)} + Wire(b.exitNodes, next + 1), b.merges);
    Suffixed([Plain(EmptyMarker), Plain(EmptyMarker)], b, r);
    r
  }

  /**
   * The CFG of a script or function body, built from id `next` on: the
   * entry, the exit, then the body's block starting at `next + 2`. Only the
   * block's normal exits reach the exit; its return nodes do not.
   */
  function ScriptCfg(body: seq<Stmt>, next: NodeId): (r: Fragment)
    requires BodyBuildable(body)
    ensures Good(r, next) && r.exitNodes == {next + 1}
    ensures r.returnNodes == {} && r.breakNodes == {} && r.continueNodes == {}
    ensures OutEdges(r, next) == {Edge(next, next + 2, None)}
    ensures var b := BuildBlock(body, next + 2).value;
      && (forall e :: e in r.edges && e.dst == next + 1 <==>
            e.src in b.exitNodes && e.dst == next + 1 && e.guard == None)
      && (forall n :: n in b.returnNodes ==> Edge(n, next + 1, None) !in r.edges)
      && (forall e :: e in r.edges <==>
            e in b.edges || e == Edge(next, next + 2, None) || (e.src in b.exitNodes && e.dst == next + 1 && e.guard == None))
      && r.merges == b.merges && PayloadsKept(b, r)
  {
    ScriptWrap(next, BuildBlock(body, next + 2).value)
  }

  /** A body the builder accepts. */
  type Body = b: seq<Stmt> | BodyBuildable(b) witness [Leaf("")]

  /**
   * CFGs for `bodies` in order, each built by `cfg` from the first id the
   * previous one left free.
   */
  function LayOut(bodies: seq<Body>, next: NodeId, cfg: (Body, NodeId) -> Fragment): (r: seq<Fragment>)
    requires forall b, n :: cfg(b, n).base == n
    ensures |r| == |bodies|
    ensures forall i :: 0 <= i < |r| ==> r[i] == cfg(bodies[i], r[i].base) && next <= r[i].base
    ensures |r| > 0 ==> r[0].base == next
    ensures forall i :: 0 < i < |r| ==> r[i].base == r[i - 1].Limit()
    ensures forall i, j :: 0 <= i < j < |r| ==> r[i].Limit() <= r[j].base
  {
    if bodies == [] then []
    else
      var first := cfg(bodies[0], next);
      [first] + LayOut(bodies[1..], first.Limit(), cfg)
  }

  /**
   * All CFGs of a script: the script's own CFG first, then one per
   * function, in the order the function list gives. No two share a node.
   */
  function CreateCfgs(script: seq<Stmt>, functions: seq<seq<Stmt>>, next: NodeId): (r: seq<Fragment>)
    requires BodyBuildable(script)
    requires forall i :: 0 <= i < |functions| ==> BodyBuildable(functions[i])
    ensures |r| == |functions| + 1
    ensures r[0] == ScriptCfg(script, next)
    ensures forall i :: 0 < i < |r| ==> r[i] == ScriptCfg(functions[i - 1], r[i].base)
  {
    var main := ScriptCfg(script, next);
    [main] + LayOut(functions, main.Limit(), (b: Body, n: NodeId) => ScriptCfg(b, n))
  }

  /** No two CFGs of a script share a node id. */
  lemma CfgsDisjoint(script: seq<Stmt>, functions: seq<seq<Stmt>>, next: NodeId)
    requires BodyBuildable(script)
    requires forall i :: 0 <= i < |functions| ==> BodyBuildable(functions[i])
    ensures var r := CreateCfgs(script, functions, next);
      forall i, j :: 0 <= i < j < |r| ==> r[i].Limit() <= r[j].base
  {
  }
}

=== FILE: cfg_graph.dfy ===
/**
 * Graph primitives shared by the CFG builder: the JavaScript statements it
 * reads, the nodes, guarded edges and merge pairs it creates, and the
 * fragment (entry node plus four exit sets) that every build rule returns.
 */
module CfgGraph {

  import opened Wrappers

  /** Node identity: Java object identity becomes a fresh number. */
  type NodeId = nat

  /** Expressions are opaque, except for the shapes the for-in rule inspects. */
  datatype Expr =
    | Name(id: string)
    | VarDecl(first: string, more: seq<string>)
    | OtherExpr(text: string)

  /**
   * The statements the builder dispatches on. `Block` stands for Rhino's
   * Block and Scope nodes and for the top level of a script or function
   * body; every statement kind the builder does not know is a `Leaf`.
   */
  datatype Stmt =
    | Block(stmts: seq<Stmt>)
    | If(cond: Expr, thenPart: Stmt, elsePart: Option<Stmt>)
    | While(cond: Expr, body: Stmt)
    | DoWhile(cond: Expr, body: Stmt)
    | For(init: Expr, cond: Expr, increment: Expr, body: Stmt)
    | ForIn(variable: Expr, iterated: Expr, body: Stmt)
    | Switch(scrutinee: Expr, cases: seq<Case>)
    | With(scope: Expr, body: Stmt)
    | Try(tryBlock: Stmt, catches: seq<Catch>, finallyBlock: Option<Stmt>)
    | Break(labelName: Option<string>)
    | Continue(labelName: Option<string>)
    | Return(value: Option<Expr>)
    | FunctionDecl(name: string, params: seq<string>)
    | Leaf(text: string)

  /** A switch case; `test` is None for `default:`. */
  datatype Case = Case(test: Option<Expr>, stmts: seq<Stmt>)

  datatype Catch = Catch(condition: Option<Expr>, body: Stmt)

  /** What a plain node wraps. */
  datatype Label =
    | EmptyMarker
    | Statement(stmt: Stmt)
    | Expression(expr: Expr)
    | NextKey(target: Expr, iterated: Expr)

  /** A registered branch target of a switch or try node. */
  datatype Target = Target(test: Option<Expr>, node: NodeId)

  /** Node kinds as tagged variants instead of subclasses. */
  datatype Payload =
    | Plain(wraps: Label)
    | Jump(jump: Stmt)
    | SwitchHead(scrutinee: Expr, cases: seq<Target>)
    | TryHead(tryBranch: NodeId, finallyBranch: NodeId, catches: seq<Target>)
    | WithHead(scope: Expr, scopeBlock: Option<NodeId>)

  /** Edge conditions, including the fabricated `~hasNextKey` call and negation. */
  datatype Guard =
    | Holds(expr: Expr)
    | HasNextKey(iterated: Expr)
    | ElsePart(part: Option<Stmt>)
    | Not(negated: Guard)

  /** An edge; a None guard is unconditional. */
  datatype Edge = Edge(src: NodeId, dst: NodeId, guard: Option<Guard>)

  /** `node.mergeInto(into)`: recorded as a pair, its effect is not modelled. */
  datatype Merge = Merge(node: NodeId, into: NodeId)

  /**
   * A fragment: one entry node, the four exit sets, and the nodes, edges
   * and merge pairs built for it. A fragment owns the contiguous ids
   * [base, base + |nodes|); `nodes[k]` is the payload of node `base + k`.
   */
  datatype Fragment = Fragment(
    entry: NodeId,
    exitNodes: set<NodeId>,
    returnNodes: set<NodeId>,
    breakNodes: set<NodeId>,
    continueNodes: set<NodeId>,
    base: NodeId,
    nodes: seq<Payload>,
    edges: set<Edge>,
    merges: set<Merge>)
  {
    /** The first id not owned by this fragment. */
    function Limit(): NodeId { base + |nodes| }

    predicate Owns(n: NodeId) { base <= n < base + |nodes| }

    function At(n: NodeId): Payload
      requires Owns(n)
    {
      nodes[n - base]
    }
  }

  /** The edges leaving `n`. */
  function OutEdges(f: Fragment, n: NodeId): (r: set<Edge>)
    ensures forall e :: e in r <==> e in f.edges && e.src == n
  {
    set e | e in f.edges && e.src == n
  }

  /** Unconditional edges from every node of `srcs` to `dst`. */
  function Wire(srcs: set<NodeId>, dst: NodeId): (es: set<Edge>)
    ensures forall e :: e in es <==> e.src in srcs && e.dst == dst && e.guard == None
  {
    set n | n in srcs :: Edge(n, dst, None)
  }

  /** `mergeInto(dst)` applied to every node of `srcs`. */
  function MergeAll(srcs: set<NodeId>, dst: NodeId): (ms: set<Merge>)
    ensures forall m :: m in ms <==> m.node in srcs && m.into == dst
  {
    set n | n in srcs :: Merge(n, dst)
  }

  /** Every node a fragment refers to is one it owns. */
  ghost predicate Closed(f: Fragment) {
    && f.Owns(f.entry)
    && (forall n :: n in f.exitNodes ==> f.Owns(n))
    && (forall n :: n in f.returnNodes ==> f.Owns(n))
    && (forall n :: n in f.breakNodes ==> f.Owns(n))
    && (forall n :: n in f.continueNodes ==> f.Owns(n))
    && (forall e :: e in f.edges ==> f.Owns(e.src) && f.Owns(e.dst))
    && (forall m :: m in f.merges ==> f.Owns(m.node) && f.Owns(m.into))
  }

  /** No node is in two of the four exit sets. */
  ghost predicate Apart(f: Fragment) {
    && f.exitNodes !! f.returnNodes && f.exitNodes !! f.breakNodes && f.exitNodes !! f.continueNodes
    && f.returnNodes !! f.breakNodes && f.returnNodes !! f.continueNodes
    && f.breakNodes !! f.continueNodes
  }

  /**
   * The invariant every build rule establishes; `lo` is the first id it was
   * given, and the entry is always the first node allocated.
   */
  ghost predicate Good(f: Fragment, lo: NodeId) {
    f.base == lo && f.entry == lo && |f.nodes| > 0 && Closed(f) && Apart(f)
  }

  /**
   * Every node of `b` is also a node of `r`, with the same payload: `b`'s
   * id range lies inside `r`'s and `r`'s payloads over it are `b`'s.
   */
  ghost predicate PayloadsKept(b: Fragment, r: Fragment) {
    r.base <= b.base && b.Limit() <= r.Limit() && r.nodes[b.base - r.base..b.Limit() - r.base] == b.nodes
  }

  /** Node by node: a node of `b` is a node of `r` with the same payload. */
  lemma KeptAt(b: Fragment, r: Fragment, n: NodeId)
    requires PayloadsKept(b, r) && b.Owns(n)
    ensures r.Owns(n) && r.At(n) == b.At(n)
  {
    assert r.nodes[b.base - r.base..b.Limit() - r.base][n - b.base] == r.nodes[n - r.base];
  }

  /** A fragment whose node list is `b`'s with nodes before and after keeps `b`'s payloads. */
  lemma Spliced(pre: seq<Payload>, b: Fragment, post: seq<Payload>, r: Fragment)
    requires r.nodes == pre + b.nodes + post && b.base == r.base + |pre|
    ensures PayloadsKept(b, r)
  {
    assert (pre + b.nodes + post)[|pre|..|pre| + |b.nodes|] == b.nodes;
  }

  /** `Spliced` with nothing after `b`. */
  lemma Suffixed(pre: seq<Payload>, b: Fragment, r: Fragment)
    requires r.nodes == pre + b.nodes && b.base == r.base + |pre|
    ensures PayloadsKept(b, r)
  {
    assert (pre + b.nodes)[|pre|..|pre| + |b.nodes|] == b.nodes;
  }

  /** `Spliced` with nothing before `b`. */
  lemma Prefixed(b: Fragment, post: seq<Payload>, r: Fragment)
    requires r.nodes == b.nodes + post && b.base == r.base
    ensures PayloadsKept(b, r)
  {
    assert (b.nodes + post)[..|b.nodes|] == b.nodes;
  }

  /** Two fragments laid end to end: both keep their payloads in the joined node list. */
  lemma Joined(a: Fragment, b: Fragment, r: Fragment)
    requires r.nodes == a.nodes + b.nodes && r.base == a.base && b.base == a.Limit()
    ensures PayloadsKept(a, r) && PayloadsKept(b, r)
  {
    Prefixed(a, b.nodes, r);
    Suffixed(a.nodes, b, r);
  }

  lemma KeptTrans(a: Fragment, b: Fragment, c: Fragment)
    requires PayloadsKept(a, b) && PayloadsKept(b, c)
    ensures PayloadsKept(a, c)
  {
    var lo, hi := b.base - c.base, b.Limit() - c.base;
    assert c.nodes[a.base - c.base..a.Limit() - c.base] == c.nodes[lo..hi][a.base - b.base..a.Limit() - b.base];
  }

  // Unions over the parts of a switch or of a try statement's catch clauses.

  function EdgesOf(ps: seq<Fragment>): set<Edge> {
    if ps == [] then {} else ps[0].edges + EdgesOf(ps[1..])
  }

  function MergesOf(ps: seq<Fragment>): set<Merge> {
    if ps == [] then {} else ps[0].merges + MergesOf(ps[1..])
  }

  function ReturnsOf(ps: seq<Fragment>): set<NodeId> {
    if ps == [] then {} else ps[0].returnNodes + ReturnsOf(ps[1..])
  }

  function BreaksOf(ps: seq<Fragment>): set<NodeId> {
    if ps == [] then {} else ps[0].breakNodes + BreaksOf(ps[1..])
  }

  function ContinuesOf(ps: seq<Fragment>): set<NodeId> {
    if ps == [] then {} else ps[0].continueNodes + ContinuesOf(ps[1..])
  }
}

=== FILE: cfg_laws.dfy ===
/**
 * Laws of the CFG builder: how the recursive block rule relates to the
 * left-to-right loop it is written as, what a block skips, where its
 * entry, exits and jump nodes come from, and how the switch and try rules
 * lay out and register their cases and catch clauses.
 */
module CfgLaws {

  import opened Wrappers
  import opened CfgGraph
  import opened CfgFactory

  // ---------------------------------------------------------------------
  // Blocks, left to right
  // ---------------------------------------------------------------------

  /** Chaining is associative, so a block may be folded from either end. */
  lemma ThenAssoc(a: Fragment, b: Fragment, c: Fragment)
    requires Good(a, a.base) && Good(b, a.Limit()) && Good(c, b.Limit())
    ensures Then(Then(a, b), c) == Then(a, Then(b, c))
  {
    UnionAssoc(a.returnNodes, b.returnNodes, c.returnNodes);
    UnionAssoc(a.breakNodes, b.breakNodes, c.breakNodes);
    UnionAssoc(a.continueNodes, b.continueNodes, c.continueNodes);
    UnionShuffle(a.edges, b.edges, Wire(a.exitNodes, b.entry), c.edges, Wire(b.exitNodes, c.entry));
    UnionShuffle(a.merges, b.merges, {}, c.merges, {});
    ConcatAssoc(a.nodes, b.nodes, c.nodes);
  }

  lemma UnionAssoc<T>(x: set<T>, y: set<T>, z: set<T>)
    ensures (x + y) + z == x + (y + z)
  {
  }

  /** The two ways the parts of three chained fragments are united. */
  lemma UnionShuffle<T>(a: set<T>, b: set<T>, ab: set<T>, c: set<T>, bc: set<T>)
    ensures (((a + b) + ab) + c) + bc == (a + ((b + c) + bc)) + ab
  {
  }

  lemma ConcatAssoc<T>(a: seq<T>, b: seq<T>, c: seq<T>)
    ensures (a + b) + c == a + (b + c)
  {
  }

  /**
   * One iteration of the block loop: build the next statement at the first
   * free id; if it builds, it becomes the entry (first time) or receives
   * edges from the previous fragment's exits, and its jump sets join the
   * block's.
   */
  function Step(acc: Option<Fragment>, s: Stmt, next: NodeId): (r: Option<Fragment>)
    requires Buildable(s) && (acc.Some? ==> Good(acc.value, acc.value.base))
    ensures r.Some? <==> acc.Some? || Yields(s)
    ensures acc.Some? && r.Some? ==> r.value.entry == acc.value.entry && Good(r.value, acc.value.base)
    ensures acc.None? && r.Some? ==> Good(r.value, next)
  {
    var free := if acc.Some? then acc.value.Limit() else next;
    var sub := Build(s, free);
    if sub.None? then acc
    else if acc.None? then sub
    else Some(Then(acc.value, sub.value))
  }

  lemma {:induction false} AllBuildableSnoc(ss: seq<Stmt>, s: Stmt)
    requires AllBuildable(ss) && Buildable(s)
    ensures AllBuildable(ss + [s])
    decreases |ss|
  {
    if ss != [] {
      assert (ss + [s])[1..] == ss[1..] + [s];
      AllBuildableSnoc(ss[1..], s);
    }
  }

  lemma {:induction false} AllBuildablePrefix(ss: seq<Stmt>, i: nat)
    requires AllBuildable(ss) && i < |ss|
    ensures AllBuildable(ss[..i]) && Buildable(ss[i])
    decreases i
  {
    if i > 0 {
      AllBuildablePrefix(ss[1..], i - 1);
      assert ss[..i] == [ss[0]] + ss[1..][..i - 1];
    }
  }

  /**
   * Building a block with one more statement at the end is one more step
   * of the loop on the shorter block.
   */
  lemma {:induction false} BlockSnoc(ss: seq<Stmt>, s: Stmt, next: NodeId)
    requires AllBuildable(ss) && Buildable(s)
    ensures AllBuildable(ss + [s])
    ensures BuildBlock(ss + [s], next) == Step(BuildBlock(ss, next), s, next)
    decreases |ss|
  {
    AllBuildableSnoc(ss, s);
    if ss == [] {
      assert [s][1..] == [];
    } else {
      var tl := ss[1..];
      assert (ss + [s])[0] == ss[0];
      assert (ss + [s])[1..] == tl + [s];
      var first := Build(ss[0], next);
      if first.None? {
        BlockSnoc(tl, s, next);
      } else {
        var f := first.value;
        BlockSnoc(tl, s, f.Limit());
        var rest := BuildBlock(tl, f.Limit());
        if rest.Some? {
          var sub := Build(s, rest.value.Limit());
          if sub.Some? {
            ThenAssoc(f, rest.value, sub.value);
          }
        }
      }
    }
  }

  /**
   * The block rule as the source writes it, a loop over the statements
   * that keeps the fragment built so far; it agrees with the recursive
   * `BuildBlock`.
   */
  method BlockLoop(ss: seq<Stmt>, next: NodeId) returns (r: Option<Fragment>)
    requires AllBuildable(ss)
    ensures r == BuildBlock(ss, next)
  {
    r := None;
    var i := 0;
    while i < |ss|
      invariant 0 <= i <= |ss|
      invariant AllBuildable(ss[..i])
      invariant r == BuildBlock(ss[..i], next)
    {
      AllBuildablePrefix(ss, i);
      BlockSnoc(ss[..i], ss[i], next);
      assert ss[..i + 1] == ss[..i] + [ss[i]];
      r := Step(r, ss[i], next);
      i := i + 1;
    }
    assert ss[..i] == ss;
  }

  /** The statements of `ss` that build a fragment, in order. */
  function Yielding(ss: seq<Stmt>): (r: seq<Stmt>)
    ensures forall i :: 0 <= i < |r| ==> Yields(r[i])
    ensures r == [] <==> !YieldsAny(ss)
  {
    if ss == [] then []
    else (if Yields(ss[0]) then [ss[0]] else []) + Yielding(ss[1..])
  }

  /**
   * A block builds exactly what its building statements build: function
   * declarations and blocks that build nothing are skipped without taking
   * an id.
   */
  lemma {:induction false} BlockSkips(ss: seq<Stmt>, next: NodeId)
    requires AllBuildable(ss)
    ensures AllBuildable(Yielding(ss))
    ensures BuildBlock(ss, next) == BuildBlock(Yielding(ss), next)
    decreases |ss|
  {
    if ss != [] {
      var tl := ss[1..];
      if Yields(ss[0]) {
        var y := Yielding(ss);
        assert y[0] == ss[0] && y[1..] == Yielding(tl);
        var first := Build(ss[0], next);
        BlockSkips(tl, first.value.Limit());
      } else {
        assert Yielding(ss) == Yielding(tl);
        BlockSkips(tl, next);
      }
    }
  }

  /** The block's entry is the entry of its first building statement. */
  lemma BlockEntry(ss: seq<Stmt>, next: NodeId)
    requires AllBuildable(ss) && YieldsAny(ss)
    ensures AllBuildable(Yielding(ss)) && Buildable(Yielding(ss)[0])
    ensures BuildBlock(ss, next).value.entry == Build(Yielding(ss)[0], next).value.entry
  {
    BlockSkips(ss, next);
  }

  /**
   * The block's normal exits are those of its last building statement,
   * built at the first id its predecessors left free.
   */
  lemma BlockExits(ss: seq<Stmt>, s: Stmt, next: NodeId)
    requires AllBuildable(ss) && Buildable(s) && Yields(s)
    ensures AllBuildable(ss + [s]) && BuildBlock(ss + [s], next).Some?
    ensures var prefix := BuildBlock(ss, next);
      var free := if prefix.Some? then prefix.value.Limit() else next;
      BuildBlock(ss + [s], next).value.exitNodes == Build(s, free).value.exitNodes
  {
    BlockSnoc(ss, s, next);
  }

  /**
   * The block's returns, breaks and continues are those of its building
   * statements together, and its edges are theirs plus one unguarded edge
   * from every normal exit of a statement to the next one's entry.
   */
  lemma BlockJumps(ss: seq<Stmt>, s: Stmt, next: NodeId)
    requires AllBuildable(ss) && Buildable(s) && Yields(s)
    ensures AllBuildable(ss + [s]) && BuildBlock(ss + [s], next).Some?
    ensures var prefix := BuildBlock(ss, next);
      var free := if prefix.Some? then prefix.value.Limit() else next;
      var last := Build(s, free).value;
      var whole := BuildBlock(ss + [s], next).value;
      && whole.returnNodes == (if prefix.Some? then prefix.value.returnNodes else {}) + last.returnNodes
      && whole.breakNodes == (if prefix.Some? then prefix.value.breakNodes else {}) + last.breakNodes
      && whole.continueNodes == (if prefix.Some? then prefix.value.continueNodes else {}) + last.continueNodes
      && (forall e :: e in whole.edges <==>
            e in last.edges
            || (prefix.Some? && e in prefix.value.edges)
            || (prefix.Some? && e.src in prefix.value.exitNodes && e.dst == last.entry && e.guard == None))
  {
    BlockSnoc(ss, s, next);
  }

  // ---------------------------------------------------------------------
  // Switch and try
  // ---------------------------------------------------------------------

  ghost predicate CasesEach(cs: seq<Case>) {
    forall i :: 0 <= i < |cs| ==> AllBuildable(cs[i].stmts)
  }

  lemma {:induction false} CasesEachFrom(cs: seq<Case>)
    requires CasesBuildable(cs)
    ensures CasesEach(cs)
    decreases |cs|
  {
    if cs != [] {
      CasesEachFrom(cs[1..]);
      assert forall i :: 1 <= i < |cs| ==> cs[i] == cs[1..][i - 1];
    }
  }

  /** The cases `cs`, each built as a block, laid out one after another from `next`. */
  function CaseList(cs: seq<Case>, next: NodeId): (r: seq<Fragment>)
    requires CasesEach(cs)
    ensures |r| == |cs|
    ensures forall i :: 0 <= i < |cs| ==> r[i] == CaseFrag(cs[i], r[i].base)
    decreases |cs|
  {
    if cs == [] then []
    else
      var c := CaseFrag(cs[0], next);
      assert forall i :: 1 <= i < |cs| ==> cs[1..][i - 1] == cs[i];
      [c] + CaseList(cs[1..], c.Limit())
  }

  /** The fragment recorded for each case is that case's statements built as a block. */
  lemma {:induction false} CaseParts(cs: seq<Case>, next: NodeId)
    requires cs != [] && CasesBuildable(cs)
    ensures CasesEach(cs)
    ensures BuildCases(cs, next).parts == CaseList(cs, next)
    decreases |cs|
  {
    CasesEachFrom(cs);
    if |cs| > 1 {
      var c := CaseFrag(cs[0], next);
      CaseParts(cs[1..], c.Limit());
    }
  }

  ghost predicate CatchesEach(cs: seq<Catch>) {
    forall i :: 0 <= i < |cs| ==> Buildable(cs[i].body)
  }

  lemma {:induction false} CatchesEachFrom(cs: seq<Catch>)
    requires CatchesBuildable(cs)
    ensures CatchesEach(cs)
    decreases |cs|
  {
    if cs != [] {
      CatchesEachFrom(cs[1..]);
      assert forall i :: 1 <= i < |cs| ==> cs[i] == cs[1..][i - 1];
    }
  }

  /** `f` is what clause `c` builds from `f.base`, or the fresh empty node when it builds nothing. */
  ghost predicate CatchFrag(c: Catch, f: Fragment)
    requires Buildable(c.body)
  {
    if Yields(c.body) then Build(c.body, f.base) == Some(f) else f == Lone(f.base, Plain(EmptyMarker))
  }

  /**
   * The catch clauses `cs` laid out one after another from `next`: each
   * clause's body, or a fresh empty node when it builds nothing.
   */
  function CatchList(cs: seq<Catch>, next: NodeId): (r: seq<Fragment>)
    requires CatchesEach(cs)
    ensures |r| == |cs|
    ensures forall i :: 0 <= i < |cs| ==> CatchFrag(cs[i], r[i])
    decreases |cs|
  {
    if cs == [] then []
    else
      var c := OrEmpty(Build(cs[0].body, next), next);
      assert forall i :: 1 <= i < |cs| ==> cs[1..][i - 1] == cs[i];
      [c] + CatchList(cs[1..], c.Limit())
  }

  /** The fragment recorded for each catch clause is that clause's, laid out after `acc`. */
  lemma {:induction false} CatchParts(cs: seq<Catch>, acc: Fragment, fin: NodeId)
    requires CatchesBuildable(cs) && Good(acc, acc.base) && acc.Owns(fin)
    ensures CatchesEach(cs)
    ensures BuildCatches(cs, acc, fin).parts == CatchList(cs, acc.Limit())
    decreases |cs|
  {
    CatchesEachFrom(cs);
    if cs != [] {
      assert CatchBuildable(cs[0]);
      var built := Build(cs[0].body, acc.Limit());
      CatchParts(cs[1..], Absorb(acc, built, fin), fin);
    }
  }

  /**
   * The try rule allocates the try node, then the finally block (or a
   * fresh empty node), then the try block, then the catch clauses. The try
   * node records the try block's entry, the finally entry and the catch
   * targets, and has no outgoing edges of its own.
   */
  lemma TryInOrder(s: Stmt, head: NodeId)
    requires s.Try? && Buildable(s)
    ensures var fin := OrEmpty(BuildOpt(s.finallyBlock, head + 1), head + 1);
      var r := BuildTry(s, head);
      && r.entry == head && OutEdges(r, head) == {}
      && r.At(head) == TryHead(fin.Limit(), head + 1, r.At(head).catches)
  {
  }

  /** The try node has one target per catch clause, the first right after the try block. */
  lemma TryTargets(s: Stmt, head: NodeId)
    requires s.Try? && Buildable(s)
    ensures var fin := OrEmpty(BuildOpt(s.finallyBlock, head + 1), head + 1);
      var t := OrEmpty(Build(s.tryBlock, fin.Limit()), fin.Limit());
      var r := BuildTry(s, head);
      && r.At(head).TryHead? && |r.At(head).catches| == |s.catches|
      && (s.catches != [] ==> r.At(head).catches[0].node == t.Limit())
  {
  }

  /**
   * The try node and a present finally block's exits are the try
   * statement's normal exits; the try block's normal exits are merged into
   * the finally entry and its jump nodes propagate.
   */
  lemma TryFlow(s: Stmt, head: NodeId)
    requires s.Try? && Buildable(s)
    ensures var built := BuildOpt(s.finallyBlock, head + 1);
      var tried := Build(s.tryBlock, OrEmpty(built, head + 1).Limit());
      var r := BuildTry(s, head);
      && r.exitNodes == {head} + (if built.Some? then built.value.exitNodes else {})
      && (built.Some? ==> built.value.returnNodes <= r.returnNodes)
      && (tried.Some? ==>
            MergeAll(tried.value.exitNodes, head + 1) <= r.merges && tried.value.returnNodes <= r.returnNodes
            && tried.value.breakNodes <= r.breakNodes && tried.value.continueNodes <= r.continueNodes)
  {
  }
}

=== FILE: special_type.dfy ===
/**
 * The special-type repair analysis: the lattice element threaded along
 * one path of a CFG, its entry value, and the edge and node transfer
 * functions. A finding is an identifier used on a path where a newly
 * checked condition proved it is not of some special type.
 *
 * The condition visitor, the used-identifier and assignment extractors and
 * the scope's declaration lookup are not part of this model; their answers
 * are inputs (a list of checks, a set of names, a list of assignments, a
 * map from names to the change type of their declaration).
 */
module SpecialTypeFlow {

  import opened Wrappers

  /** The special types, in declaration order. */
  datatype SpecialType =
    | Falsey      // undefined, null, NaN, blank or zero
    | NoValue     // undefined or null
    | Empty       // blank, zero or empty array
    | Undefined
    | Null
    | NaN
    | Blank
    | Zero
    | EmptyArray
    | Function

  /** The change annotation the tree differencer puts on a node. */
  datatype ChangeType = Unchanged | Inserted | Removed | Updated | Moved

  /**
   * A special-type check found in an edge condition: on this edge
   * `identifier` is of `specialType` (`isSpecialType`) or is not.
   */
  datatype Check = Check(identifier: string, specialType: SpecialType, isSpecialType: bool)

  /**
   * An assignment to `identifier` in a statement: the special type of the
   * assigned value (None when it is not a special-type literal) and the
   * value's change type.
   */
  datatype Assignment = Assignment(identifier: string, valueType: Option<SpecialType>, change: ChangeType)

  /** A finding; two are equal exactly when identifier and type are. */
  datatype CheckResult = CheckResult(identifier: string, specialType: SpecialType)

  /**
   * What one path knows: the types each identifier may be, the types it
   * cannot be, and the special type it was last assigned by a changed
   * assignment.
   */
  datatype LatticeElement = LatticeElement(
    specialTypes: map<string, seq<SpecialType>>,
    nonSpecialTypes: map<string, seq<SpecialType>>,
    assignments: map<string, SpecialType>)

  /** The element at the entry of every function: nothing is known. */
  function EntryValue(): (r: LatticeElement)
    ensures forall id :: id !in r.specialTypes && id !in r.nonSpecialTypes && id !in r.assignments
  {
    LatticeElement(map[], map[], map[])
  }

  // ---------------------------------------------------------------------
  // Edge transfer
  // ---------------------------------------------------------------------

  predicate NoDuplicates<T(==)>(s: seq<T>) {
    forall i, j :: 0 <= i < j < |s| ==> s[i] != s[j]
  }

  ghost predicate NoDuplicateLists(m: map<string, seq<SpecialType>>) {
    forall id :: id in m ==> NoDuplicates(m[id])
  }

  /**
   * Adds `t` to the list of `id`: a new one-element list when `id` has
   * none, an append when the list lacks `t`, nothing otherwise.
   */
  function AddType(m: map<string, seq<SpecialType>>, id: string, t: SpecialType): (r: map<string, seq<SpecialType>>)
    ensures r.Keys == m.Keys + {id}
    ensures id !in m ==> r[id] == [t]
    ensures id in m ==> m[id] <= r[id] && |r[id]| <= |m[id]| + 1
    ensures forall u :: u in r[id] <==> u == t || (id in m && u in m[id])
    ensures forall k :: k in m && k != id ==> r[k] == m[k]
    ensures NoDuplicateLists(m) ==> NoDuplicateLists(r)
  {
    if id !in m then m[id := [t]]
    else if t in m[id] then m
    else m[id := m[id] + [t]]
  }

  /**
   * Records one check: a positive check adds its type to the may-be list
   * of its identifier, a negative one to the cannot-be list; the other map
   * and the assignments are left alone, and lists only grow at their end.
   */
  function Record(le: LatticeElement, c: Check): (r: LatticeElement)
    ensures r.assignments == le.assignments
    ensures c.isSpecialType ==> r.nonSpecialTypes == le.nonSpecialTypes
    ensures !c.isSpecialType ==> r.specialTypes == le.specialTypes
    ensures forall id :: id in r.specialTypes <==> id in le.specialTypes || (c.isSpecialType && c.identifier == id)
    ensures forall id :: id in r.nonSpecialTypes <==> id in le.nonSpecialTypes || (!c.isSpecialType && c.identifier == id)
    ensures forall id, t :: id in r.specialTypes && t in r.specialTypes[id] <==>
      (id in le.specialTypes && t in le.specialTypes[id]) || c == Check(id, t, true)
    ensures forall id, t :: id in r.nonSpecialTypes && t in r.nonSpecialTypes[id] <==>
      (id in le.nonSpecialTypes && t in le.nonSpecialTypes[id]) || c == Check(id, t, false)
    ensures forall id :: id in le.specialTypes ==> le.specialTypes[id] <= r.specialTypes[id]
    ensures forall id :: id in le.nonSpecialTypes ==> le.nonSpecialTypes[id] <= r.nonSpecialTypes[id]
    ensures NoDuplicateLists(le.specialTypes) ==> NoDuplicateLists(r.specialTypes)
    ensures NoDuplicateLists(le.nonSpecialTypes) ==> NoDuplicateLists(r.nonSpecialTypes)
  {
    if c.isSpecialType then le.(specialTypes := AddType(le.specialTypes, c.identifier, c.specialType))
    else le.(nonSpecialTypes := AddType(le.nonSpecialTypes, c.identifier, c.specialType))
  }

  /** Whether `id` was declared by an inserted declaration. */
  predicate DeclaredInserted(declarations: map<string, ChangeType>, id: string) {
    id in declarations && declarations[id] == Inserted
  }

  /** The checks taken into account: those before the first one on an inserted variable. */
  function Applied(checks: seq<Check>, declarations: map<string, ChangeType>): (r: seq<Check>)
    ensures r <= checks
    ensures forall c :: c in r ==> !DeclaredInserted(declarations, c.identifier)
    ensures |r| < |checks| ==> DeclaredInserted(declarations, checks[|r|].identifier)
  {
    if checks == [] || DeclaredInserted(declarations, checks[0].identifier) then []
    else [checks[0]] + Applied(checks[1..], declarations)
  }

  /**
   * Records the checks in order, stopping (and keeping what was recorded)
   * at the first check on a variable whose declaration was inserted.
   */
  function ApplyChecks(le: LatticeElement, checks: seq<Check>, declarations: map<string, ChangeType>): (r: LatticeElement)
    ensures r.assignments == le.assignments
    ensures forall id :: id in le.specialTypes ==>
      id in r.specialTypes && le.specialTypes[id] <= r.specialTypes[id]
    ensures forall id :: id in le.nonSpecialTypes ==>
      id in r.nonSpecialTypes && le.nonSpecialTypes[id] <= r.nonSpecialTypes[id]
    ensures NoDuplicateLists(le.specialTypes) ==> NoDuplicateLists(r.specialTypes)
    ensures NoDuplicateLists(le.nonSpecialTypes) ==> NoDuplicateLists(r.nonSpecialTypes)
    decreases |checks|
  {
    if checks == [] || DeclaredInserted(declarations, checks[0].identifier) then le
    else ApplyChecks(Record(le, checks[0]), checks[1..], declarations)
  }

  /**
   * The edge transfer: an edge without a condition changes nothing;
   * otherwise the visitor's checks on the condition are applied.
   */
  function TransferEdge(le: LatticeElement, condition: Option<seq<Check>>, declarations: map<string, ChangeType>): (r: LatticeElement)
    ensures condition.None? ==> r == le
    ensures r.assignments == le.assignments
    ensures condition.Some? ==> r == ApplyChecks(le, Applied(condition.value, declarations), declarations)
  {
    match condition
    case None => le
    case Some(checks) =>
      ApplyChecksStops(le, checks, declarations);
      ApplyChecks(le, checks, declarations)
  }

  /** Stopping at an inserted variable is the same as applying the checks before it. */
  lemma {:induction false} ApplyChecksStops(le: LatticeElement, checks: seq<Check>, declarations: map<string, ChangeType>)
    ensures ApplyChecks(le, checks, declarations) == ApplyChecks(le, Applied(checks, declarations), declarations)
    decreases |checks|
  {
    if checks != [] && !DeclaredInserted(declarations, checks[0].identifier) {
      var app := Applied(checks, declarations);
      assert app[0] == checks[0] && app[1..] == Applied(checks[1..], declarations);
      ApplyChecksStops(Record(le, checks[0]), checks[1..], declarations);
    }
  }

  /** The identifiers of the positive (or negative) checks among `checks`. */
  function Named(checks: seq<Check>, positive: bool): (r: set<string>)
    ensures forall id :: id in r <==> exists c :: c in checks && c.isSpecialType == positive && c.identifier == id
  {
    set c | c in checks && c.isSpecialType == positive :: c.identifier
  }

  /**
   * Which identifiers have a may-be list after the checks: those that had
   * one before and those of the positive checks applied.
   */
  lemma {:induction false} ApplyChecksSpecialKeys(le: LatticeElement, checks: seq<Check>, declarations: map<string, ChangeType>, id: string)
    ensures id in ApplyChecks(le, checks, declarations).specialTypes <==>
      id in le.specialTypes || id in Named(Applied(checks, declarations), true)
    decreases |checks|
  {
    if checks != [] && !DeclaredInserted(declarations, checks[0].identifier) {
      assert Applied(checks, declarations) == [checks[0]] + Applied(checks[1..], declarations);
      NamedCons(checks[0], Applied(checks[1..], declarations), id);
      ApplyChecksSpecialKeys(Record(le, checks[0]), checks[1..], declarations, id);
    }
  }

  /**
   * What the may-be lists hold after the checks: the types they held
   * before and those of the positive checks applied.
   */
  lemma {:induction false} ApplyChecksSpecialTypes(le: LatticeElement, checks: seq<Check>, declarations: map<string, ChangeType>, id: string, t: SpecialType)
    ensures var r := ApplyChecks(le, checks, declarations);
      id in r.specialTypes && t in r.specialTypes[id] <==>
        (id in le.specialTypes && t in le.specialTypes[id]) || Check(id, t, true) in Applied(checks, declarations)
    decreases |checks|
  {
    if checks != [] && !DeclaredInserted(declarations, checks[0].identifier) {
      assert Applied(checks, declarations) == [checks[0]] + Applied(checks[1..], declarations);
      ApplyChecksSpecialTypes(Record(le, checks[0]), checks[1..], declarations, id, t);
    }
  }

  /**
   * Which identifiers have a cannot-be list after the checks: those that
   * had one before and those of the negative checks applied.
   */
  lemma {:induction false} ApplyChecksNonSpecialKeys(le: LatticeElement, checks: seq<Check>, declarations: map<string, ChangeType>, id: string)
    ensures id in ApplyChecks(le, checks, declarations).nonSpecialTypes <==>
      id in le.nonSpecialTypes || id in Named(Applied(checks, declarations), false)
    decreases |checks|
  {
    if checks != [] && !DeclaredInserted(declarations, checks[0].identifier) {
      assert Applied(checks, declarations) == [checks[0]] + Applied(checks[1..], declarations);
      NamedCons(checks[0], Applied(checks[1..], declarations), id);
      ApplyChecksNonSpecialKeys(Record(le, checks[0]), checks[1..], declarations, id);
    }
  }

  /**
   * What the cannot-be lists hold after the checks: the types they held
   * before and those of the negative checks applied.
   */
  lemma {:induction false} ApplyChecksNonSpecialTypes(le: LatticeElement, checks: seq<Check>, declarations: map<string, ChangeType>, id: string, t: SpecialType)
    ensures var r := ApplyChecks(le, checks, declarations);
      id in r.nonSpecialTypes && t in r.nonSpecialTypes[id] <==>
        (id in le.nonSpecialTypes && t in le.nonSpecialTypes[id]) || Check(id, t, false) in Applied(checks, declarations)
    decreases |checks|
  {
    if checks != [] && !DeclaredInserted(declarations, checks[0].identifier) {
      assert Applied(checks, declarations) == [checks[0]] + Applied(checks[1..], declarations);
      ApplyChecksNonSpecialTypes(Record(le, checks[0]), checks[1..], declarations, id, t);
    }
  }

  lemma NamedCons(c: Check, rest: seq<Check>, id: string)
    ensures id in Named([c] + rest, true) <==> (c.isSpecialType && c.identifier == id) || id in Named(rest, true)
    ensures id in Named([c] + rest, false) <==> (!c.isSpecialType && c.identifier == id) || id in Named(rest, false)
  {
  }

  /** A check on an inserted variable, first on its edge, leaves the element as it was. */
  lemma InsertedSuppresses(le: LatticeElement, c: Check, rest: seq<Check>, declarations: map<string, ChangeType>)
    requires DeclaredInserted(declarations, c.identifier)
    ensures TransferEdge(le, Some([c] + rest), declarations) == le
  {
    assert Applied([c] + rest, declarations) == [];
  }

  // ---------------------------------------------------------------------
  // Node transfer
  // ---------------------------------------------------------------------

  /**
   * Whether using `id` in a statement reports that it is not of type `t`:
   * `id` is known not to be `t` and is not known to be any special type,
   * and it was neither last assigned a falsey value nor a `t`.
   */
  predicate Finding(le: LatticeElement, used: set<string>, id: string, t: SpecialType) {
    && id in le.nonSpecialTypes && t in le.nonSpecialTypes[id]
    && id !in le.specialTypes
    && id in used
    && !(id in le.assignments && le.assignments[id] == Falsey)
    && !(id in le.assignments && le.assignments[id] == t)
  }

  /** All findings of a statement using `used`, as a set of results. */
  function Findings(le: LatticeElement, used: set<string>): (r: set<CheckResult>)
    ensures forall x :: x in r <==> Finding(le, used, x.identifier, x.specialType)
  {
    set id, t | id in le.nonSpecialTypes.Keys && t in le.nonSpecialTypes[id] && Finding(le, used, id, t)
      :: CheckResult(id, t)
  }

  /**
   * The reporting loop as the source writes it: over every identifier
   * known not to be some special type and over its list, adding a result
   * per qualifying type to `results`.
   */
  method CollectFindings(le: LatticeElement, used: set<string>, results: set<CheckResult>) returns (r: set<CheckResult>)
    ensures r == results + Findings(le, used)
  {
    r := results;
    var todo := le.nonSpecialTypes.Keys;
    while todo != {}
      invariant todo <= le.nonSpecialTypes.Keys
      invariant forall x :: x in r <==>
        x in results || (x.identifier !in todo && Finding(le, used, x.identifier, x.specialType))
      decreases |todo|
    {
      var id :| id in todo;
      todo := todo - {id};
      if id !in le.specialTypes && id in used {
        var assignedTo := if id in le.assignments then Some(le.assignments[id]) else None;
        if assignedTo != Some(Falsey) {
          var types := le.nonSpecialTypes[id];
          var i := 0;
          while i < |types|
            invariant 0 <= i <= |types|
            invariant forall x :: x in r <==>
              x in results || (x.identifier !in todo + {id} && Finding(le, used, x.identifier, x.specialType))
                || (x.identifier == id && x.specialType in types[..i] && assignedTo != Some(x.specialType))
          {
            if assignedTo != Some(types[i]) {
              r := r + {CheckResult(id, types[i])};
            }
            assert types[..i + 1] == types[..i] + [types[i]];
            i := i + 1;
          }
          assert types[..i] == types;
        }
      }
    }
  }

  /** Whether an assignment is tracked: a special-type value that was inserted, removed or updated. */
  predicate Tracked(a: Assignment) {
    a.valueType.Some? && a.change in {Inserted, Removed, Updated}
  }

  /**
   * One assignment: a tracked one records its type, any other forgets the
   * identifier's assignment; either way the identifier is no longer known
   * not to be of any type.
   */
  function Assign(le: LatticeElement, a: Assignment): (r: LatticeElement)
    ensures r.specialTypes == le.specialTypes
    ensures r.nonSpecialTypes.Keys == le.nonSpecialTypes.Keys - {a.identifier}
    ensures Tracked(a) ==> a.identifier in r.assignments && r.assignments[a.identifier] == a.valueType.value
    ensures !Tracked(a) ==> a.identifier !in r.assignments
    ensures forall k :: k != a.identifier ==>
      (k in r.assignments <==> k in le.assignments)
      && (k in r.assignments ==> r.assignments[k] == le.assignments[k])
      && (k in r.nonSpecialTypes ==> r.nonSpecialTypes[k] == le.nonSpecialTypes[k])
  {
    LatticeElement(
      le.specialTypes,
      le.nonSpecialTypes - {a.identifier},
      if Tracked(a) then le.assignments[a.identifier := a.valueType.value]
      else le.assignments - {a.identifier})
  }

  /** The statement's assignments, in order. */
  function ApplyAssignments(le: LatticeElement, assigns: seq<Assignment>): (r: LatticeElement)
    ensures r.specialTypes == le.specialTypes
    ensures r.nonSpecialTypes.Keys <= le.nonSpecialTypes.Keys
    ensures forall a :: a in assigns ==> a.identifier !in r.nonSpecialTypes
    decreases |assigns|
  {
    if assigns == [] then le
    else ApplyAssignments(Assign(le, assigns[0]), assigns[1..])
  }

  /** The last assignment to `id` in `assigns`, if any. */
  function LastAssignment(assigns: seq<Assignment>, id: string): (r: Option<Assignment>)
    ensures r.Some? ==> r.value in assigns && r.value.identifier == id
    ensures r.None? ==> forall a :: a in assigns ==> a.identifier != id
  {
    if assigns == [] then None
    else
      var later := LastAssignment(assigns[1..], id);
      if later.Some? then later
      else if assigns[0].identifier == id then Some(assigns[0])
      else None
  }

  /**
   * The last assignment to an identifier decides its recorded assignment;
   * an identifier never assigned keeps its assignment and its cannot-be list.
   */
  lemma {:induction false} LastAssignmentWins(le: LatticeElement, assigns: seq<Assignment>, id: string)
    ensures var r := ApplyAssignments(le, assigns);
      match LastAssignment(assigns, id)
      case None =>
        && (id in r.assignments <==> id in le.assignments)
        && (id in r.assignments ==> r.assignments[id] == le.assignments[id])
        && (id in r.nonSpecialTypes <==> id in le.nonSpecialTypes)
        && (id in r.nonSpecialTypes ==> r.nonSpecialTypes[id] == le.nonSpecialTypes[id])
      case Some(a) =>
        && (Tracked(a) ==> id in r.assignments && r.assignments[id] == a.valueType.value)
        && (!Tracked(a) ==> id !in r.assignments)
        && id !in r.nonSpecialTypes
    decreases |assigns|
  {
    if assigns != [] {
      LastAssignmentWins(Assign(le, assigns[0]), assigns[1..], id);
    }
  }

  /**
   * The node transfer: findings come from the element as it was before
   * the statement's assignments, which then update the element.
   */
  method TransferNode(le: LatticeElement, used: set<string>, assigns: seq<Assignment>, results: set<CheckResult>)
    returns (r: LatticeElement, found: set<CheckResult>)
    ensures forall x :: x in found <==> x in results || Finding(le, used, x.identifier, x.specialType)
    ensures r.specialTypes == le.specialTypes
    ensures r == ApplyAssignments(le, assigns)
  {
    found := CollectFindings(le, used, results);
    r := ApplyAssignments(le, assigns);
  }

  // ---------------------------------------------------------------------
  // Paths
  // ---------------------------------------------------------------------

  /**
   * On the first guarded edge out of a function's entry, a statement
   * reports `x` exactly when an applied negative check on the edge names
   * it, no applied positive check names its identifier, and the statement
   * uses that identifier.
   */
  lemma FirstEdgeFindings(checks: seq<Check>, declarations: map<string, ChangeType>, used: set<string>, x: CheckResult)
    ensures x in Findings(TransferEdge(EntryValue(), Some(checks), declarations), used) <==>
      && Check(x.identifier, x.specialType, false) in Applied(checks, declarations)
      && x.identifier !in Named(Applied(checks, declarations), true)
      && x.identifier in used
  {
    ApplyChecksStops(EntryValue(), checks, declarations);
    ApplyChecksNonSpecialTypes(EntryValue(), checks, declarations, x.identifier, x.specialType);
    ApplyChecksSpecialKeys(EntryValue(), checks, declarations, x.identifier);
  }

  /**
   * A negative check on an edge, followed by a use of the identifier,
   * reports it when nothing else is known about the identifier and its
   * declaration was not inserted.
   */
  lemma CheckThenUse(le: LatticeElement, id: string, t: SpecialType, declarations: map<string, ChangeType>, used: set<string>)
    requires !DeclaredInserted(declarations, id)
    requires id !in le.specialTypes && id !in le.assignments && id in used
    ensures Finding(TransferEdge(le, Some([Check(id, t, false)]), declarations), used, id, t)
  {
    var checks := [Check(id, t, false)];
    assert Applied(checks, declarations) == checks;
    ApplyChecksNonSpecialTypes(le, checks, declarations, id, t);
    ApplyChecksSpecialKeys(le, checks, declarations, id);
  }

  /** A positive check on an identifier suppresses every finding about it. */
  lemma PositiveCheckBlocks(le: LatticeElement, id: string, t: SpecialType, declarations: map<string, ChangeType>, used: set<string>, u: SpecialType)
    requires !DeclaredInserted(declarations, id)
    ensures !Finding(TransferEdge(le, Some([Check(id, t, true)]), declarations), used, id, u)
  {
    var checks := [Check(id, t, true)];
    assert Applied(checks, declarations) == checks;
    ApplyChecksSpecialKeys(le, checks, declarations, id);
  }

  /** An identifier assigned in a statement is not reported at the next one. */
  lemma AssignedNotReported(le: LatticeElement, assigns: seq<Assignment>, a: Assignment, used: set<string>, t: SpecialType)
    requires a in assigns
    ensures !Finding(ApplyAssignments(le, assigns), used, a.identifier, t)
  {
  }
}

=== FILE: wrappers.dfy ===
/** The Some/None datatype that stands in for a Java reference that may be null. */
module Wrappers {

  datatype Option<+T> = None | Some(value: T)

}
